=== FILE: README.md ===
# workflow.app — a Dafny model of its state logic

workflow.app is a single-page productivity app with four tabs: a weekly
timesheet of hours per project, a Kanban board of tasks with checklists, a
notepad with two language-model actions ("improve" and "extract tasks"), and
settings for saving everything to a file in the user's Google Drive. All of
its logic lives in the state updates of its React components. This project
models those updates as pure functions over immutable records and proves
what they promise:

- `types.dfy` (`Types`): the records of `types.ts` — projects, rows of daily
  hours, notes, tasks with checklists, and the synced snapshot.
- `kanban.dfy` (`Kanban`): the three ordered columns, moving a task one
  column, adding, deleting and saving tasks from the edit draft, the draft's
  checklist, and the per-column counts.
- `timesheet.dfy` (`Timesheet`): the reconciliation that gives every project
  a row, the clamped hour input, daily totals and their four-way
  classification against the 8-hour target, the project-name form, and the
  chart data.
- `notepad.dfy` (`Notepad`): the active-note lookup, creating and updating
  notes, and the guard in front of the language-model actions.
- `app.dfy` (`App`): the shell's collections, adding, removing and clearing
  projects (with reconciliation), turning suggestions into tasks, the
  snapshot and the partial load.
- `sync.dfy` (`Sync`): the debounced auto-save decision and the sidebar's
  sync-status indicator.
- `seqs.dfy` (`Seqs`), `text.dfy` (`Text`), `options.dfy` (`Options`):
  `Array.prototype.filter`, `find` and `findIndex`, `String.prototype.trim`
  with the ECMAScript whitespace set, and an option type.

Fresh ids (`crypto.randomUUID`), the current time, the random project colour
and the language model's answers are parameters. Ids carry a freshness
precondition: a new id is not already in the collection it joins. Hours are
exact `real`s, not IEEE doubles, and `parseFloat`'s result is the datatype
`Timesheet.ParsedNumber` (not a number, a finite value, or an infinity).
Timers are abstract events.

## Model

| member | source | states |
|---|---|---|
| `Kanban.ColumnIndex` | components/Kanban.tsx:11-15 | every status has a position in the fixed column order, and that position holds the status |
| `Kanban.MoveStatus` | components/Kanban.tsx:51-58 | the new status is exactly one column to the requested side, or the same status when that side has no column |
| `Kanban.MoveTask` | components/Kanban.tsx:46-60 | the list keeps its length; tasks with other ids are unchanged; a matching task changes only its status, which moves one column or stays at the edge |
| `Kanban.MoveRightThenLeft` | components/Kanban.tsx:51-58 | for tasks not in the last column, moving right then left restores the list |
| `Kanban.MoveLeftThenRight` | components/Kanban.tsx:51-58 | for tasks not in the first column, moving left then right restores the list |
| `Kanban.DeleteTask` | components/Kanban.tsx:62-66 | a task remains exactly when it was there and has another id, as often as it occurred; the rest keep their order, and the count drops by the number of matching tasks |
| `Kanban.AddTask` | components/Kanban.tsx:31-44 | blank content changes nothing; otherwise one to-do task with the content, the chosen priority and an empty checklist is appended and the form resets to empty text and medium priority |
| `Kanban.AddTaskKeepsIdsUnique` | components/Kanban.tsx:35-41 | adding with a fresh id keeps task ids unique |
| `Kanban.DeleteUndoesAdd` | components/Kanban.tsx:31-66 | deleting the task just added gives back the old list |
| `Kanban.OpenTask` | components/Kanban.tsx:185 | opening a card makes it the draft and nothing else on the board changes, so text left in the new-item field carries over to the next task |
| `Kanban.CloseEditor` | components/Kanban.tsx:239 | closing without saving drops the draft and nothing else on the board changes |
| `Kanban.SetDraftContent` | components/Kanban.tsx:250 | editing the text changes only the draft's content, and nothing else on the board changes; without a draft nothing changes |
| `Kanban.SetDraftPriority` | components/Kanban.tsx:261 | choosing a priority changes only the draft's priority, and nothing else on the board changes; without a draft nothing changes |
| `Kanban.SaveTask` | components/Kanban.tsx:77-81 | without a draft nothing changes; otherwise tasks with the draft's id become the draft, every other task and the length stay, and the editor closes |
| `Kanban.SaveUnchangedDraftIsNoOp` | components/Kanban.tsx:77-81 | with unique ids, opening a task and saving it untouched leaves the list as it was |
| `Kanban.AddChecklistItem` | components/Kanban.tsx:83-98 | without a draft or with blank text nothing changes; otherwise one unchecked item with the trimmed text is appended to the draft only and the field empties |
| `Kanban.ToggleItems` | components/Kanban.tsx:104-106 | items with the given id have `done` flipped and nothing else changes |
| `Kanban.ToggleChecklistItem` | components/Kanban.tsx:100-108 | only the draft's checklist changes, by flipping the matching items; nothing else on the board changes, and without a draft nothing changes |
| `Kanban.ToggleTwiceIsIdentity` | components/Kanban.tsx:100-108 | toggling the same item twice restores the board |
| `Kanban.RemoveItems` | components/Kanban.tsx:114 | an item remains exactly when it was there and has another id, in the original order and as often as it occurred |
| `Kanban.RemoveChecklistItem` | components/Kanban.tsx:110-116 | only the draft's checklist changes, by dropping the matching items; nothing else on the board changes, and without a draft nothing changes |
| `Kanban.RemoveUndoesAddItem` | components/Kanban.tsx:83-116 | removing the item just added gives back the draft |
| `Kanban.ColumnCountsCoverBoard` | components/Kanban.tsx:173-178 | the three column counts add up to the number of tasks |
| `Kanban.ColumnCount` | components/Kanban.tsx:178 | a column's count is at most the number of tasks, zero exactly when no task is in it, and all of them exactly when every task is |
| `Kanban.DoneCount` | components/Kanban.tsx:203 | the done count never exceeds the checklist length, and equals it exactly when every item is done |
| `Timesheet.ZeroEntries` | components/Timesheet.tsx:24 | one row per given project, in order, with zero hours on every weekday |
| `Timesheet.Reconcile` | components/Timesheet.tsx:19-27 | the old rows are a prefix; every project has a row; each added row has zero hours and belongs to a project that had none |
| `Timesheet.ReconcileIdempotent` | components/Timesheet.tsx:20-25 | reconciling a second time adds nothing |
| `Timesheet.ReconcileOnePerProject` | components/Timesheet.tsx:20-25 | with unique project ids and at most one row per project before, there is exactly one row per project after |
| `Timesheet.ClampHours` | components/Timesheet.tsx:31-38 | the stored value lies in [0, 24]; in-range numbers are kept, larger ones become 24, smaller ones and unparsable input become 0 |
| `Timesheet.ClampIsIdempotent` | components/Timesheet.tsx:38 | clamping a clamped value changes nothing |
| `Timesheet.HourChange` | components/Timesheet.tsx:29-43 | only the given day of the matching rows changes, to the clamped value; other days, other rows and the length stay; clamped rows stay clamped |
| `Timesheet.DailyTotal` | components/Timesheet.tsx:50-52 | with clamped hours the total lies between 0 and 24 per row |
| `Timesheet.DailyTotalAppend` | components/Timesheet.tsx:50-52 | the total over two lists of rows is the sum of their totals, a missing day counting 0 |
| `Timesheet.ZeroRowsTotalZero` | components/Timesheet.tsx:50-52 | rows added by reconciliation contribute nothing to any day |
| `Timesheet.ReconcileKeepsTotals` | components/Timesheet.tsx:19-52 | reconciliation never changes a daily total |
| `Timesheet.Classify` | components/Timesheet.tsx:167-175 | over exactly above 8, under exactly strictly between 0 and 8, exact exactly at 8, neutral otherwise |
| `Timesheet.NeutralIffNothingBooked` | components/Timesheet.tsx:167-175 | with clamped hours a day is neutral exactly when its total is 0 |
| `Timesheet.SubmitProjectName` | components/Timesheet.tsx:54-60 | a name is submitted exactly when the field is not blank; it is the trimmed field and the field empties; otherwise the field keeps its text |
| `Timesheet.SumDays` | components/Timesheet.tsx:65 | the week's sum of clamped hours lies between 0 and 24 per day |
| `Timesheet.ChartData` | components/Timesheet.tsx:63-71 | every point has positive hours and comes from a project; every project with positive hours has its point; each point with positive hours stays as often as it occurred, in project order |
| `Timesheet.ProjectTotal` | components/Timesheet.tsx:64-65 | a project without a row totals 0; otherwise the total is the week sum of its first row |
| `Timesheet.WeekTotalBounded` | components/Timesheet.tsx:64-65 | with clamped hours a project's week total lies in [0, 120] |
| `Notepad.ActiveNote` | components/Notepad.tsx:17 | the first note with the active id, and none exactly when no note has it |
| `Notepad.CreateNote` | components/Notepad.tsx:19-28 | one empty note titled "Nuova Nota" and stamped now is put first, the old notes follow, and it becomes the open note |
| `Notepad.CreateNoteKeepsIdsUnique` | components/Notepad.tsx:19-28 | a fresh id keeps note ids unique |
| `Notepad.UpdateNote` | components/Notepad.tsx:30-32 | only notes with the id change: given fields replace theirs, the rest stay, and they are stamped now; length, order and other notes stay |
| `Notepad.UpdateNoteIdempotent` | components/Notepad.tsx:30-32 | the same edit applied twice at the same moment is the edit applied once |
| `Notepad.UpdateNoteKeepsActive` | components/Notepad.tsx:17-32 | after an edit the open note is the edited version of the open note |
| `Notepad.HandleImprove` | components/Notepad.tsx:34-40 | without an open note with content nothing changes; otherwise the open note gets the model's text and is stamped now, every note with the open id gets exactly that rewrite, and every note with another id stays as it was |
| `App.InitialIsConsistent` | App.tsx:11-57 | the default projects and tasks have unique ids, and reconciliation makes the first state consistent |
| `App.AddProject` | App.tsx:134-142 | one project with the name, the fresh id and the colour is appended; the old list is a prefix and nothing else changes |
| `App.RemoveProject` | App.tsx:144-147 | the project and every row with its id disappear; every other project and row stays as often as it occurred and in its order |
| `App.RemoveUndoesAdd` | App.tsx:134-147 | removing a project just added, before it has rows, restores the state |
| `App.ClearAllProjects` | App.tsx:149-152 | projects and rows are empty and nothing else changes |
| `App.SubmitProject` | components/Timesheet.tsx:54-60 | a blank field changes nothing; otherwise the trimmed name is added, never empty and without surrounding whitespace |
| `App.ApplyProjectOp` | App.tsx:134-152 | after any project operation and reconciliation every project has a row; adding appends the project, keeps the old rows as a prefix and gives a new project without a row a zero row; removing keeps exactly the other projects and their rows, in order; clearing empties both; every row after the kept ones is a zero row of a current project that had no kept row |
| `App.ApplyKeepsConsistent` | App.tsx:134-152 | each project operation keeps ids unique and exactly one row per project |
| `App.NewTasks` | App.tsx:155-161 | one to-do task of medium priority with an empty checklist per text, in order |
| `App.CreateTasksFromNote` | App.tsx:154-164 | the new tasks are appended in input order after the old ones and the board tab opens; nothing else changes |
| `App.CreateTasksKeepsIdsUnique` | App.tsx:154-164 | fresh ids keep task ids unique |
| `App.CreateTasksFillsTodo` | App.tsx:154-164 | the first column grows by the number of texts and the others keep their counts |
| `App.ExtractTasks` | components/Notepad.tsx:42-53 | without an open note with content, or with no suggestions, nothing changes; otherwise the suggestions become tasks |
| `App.ExtractTasksFillsTodo` | components/Notepad.tsx:42-53 | with fresh ids, extracting keeps task ids unique, and the first column grows by the number of suggestions exactly when the open note has content |
| `App.ExtractScenario` | components/Notepad.tsx:42-53 | a new note reading "Buy milk. Call Mario." with two extracted suggestions yields those two to-do tasks appended and the board shown |
| `App.GetCurrentData` | App.tsx:91-97 | the snapshot carries the four collections as they are and the given time |
| `App.FileContents` | App.tsx:166-171 | data read from a written file has every key |
| `App.LoadData` | App.tsx:166-171 | a collection is replaced exactly when the data has its key and is otherwise kept |
| `App.SaveThenLoadRestores` | App.tsx:91-171 | loading a snapshot back restores all four collections |
| `App.LoadDataIdempotent` | App.tsx:166-171 | loading the same data twice is loading it once |
| `Sync.DebounceStep` | App.tsx:102-131 | a save starts only when a pending timer fires while signed in; any evaluation ends start-up and a timer firing never does; a timer is pending only after a later evaluation with auto-save on and the drive ready; such an evaluation always schedules one |
| `Sync.FirstEvaluationNeverSaves` | App.tsx:104-107 | after the first evaluation no timer firing starts a save |
| `Sync.IdleTimersNeverSave` | App.tsx:128-130 | with no timer pending, firings start nothing |
| `Sync.BurstSavesOnce` | App.tsx:127-130 | any number of changes in a row followed by one firing starts exactly one save |
| `Sync.FirstEvaluationThenBurstSavesOnce` | App.tsx:102-131 | from start-up, whatever the flags on the first evaluation, later changes with auto-save on and the drive ready followed by one firing start exactly one save |
| `Sync.StepAsWritten` | App.tsx:113-123 | a save shows `saving`, a finished write `success`, a failed one `error`, and any reset timer shows `idle`; a save puts one more write in flight, an outcome retires one and a success starts a reset timer, a reset retires its timer, and an outcome or reset with nothing pending changes nothing |
| `Sync.Step` | App.tsx:113-123 | as above, with the same counter updates, except that a reset timer only turns `success` into `idle` and leaves `saving` and `error` |
| `Sync.SaveShowsOutcome` | App.tsx:113-123 | in both machines and from any state, a save followed by its success shows `success`, and followed by its failure shows `error` |
| `Sync.ErrorPersists` | App.tsx:120-123 | `error` survives any number of reset timers |
| `Sync.SavingPersists` | App.tsx:113-119 | `saving` survives any number of reset timers |
| `Sync.StaleResetHidesError` | App.tsx:117-122 | the interleaving save, success, save, failure, old reset ends `idle` as written and `error` as intended |
| `Text.Trim` | components/Timesheet.tsx:56-57 | the trimmed text is no longer than the text, and is empty or neither starts nor ends with whitespace |
| `Text.SkipLeading` | components/Kanban.tsx:85 | where the trimmed text starts: every skipped character is whitespace and the character there is not |
| `Text.SkipTrailing` | components/Kanban.tsx:85 | where the trimmed text ends: every dropped character is whitespace and the one before is not, never before the start |
| `Text.TrimIsCore` | components/Kanban.tsx:89 | trimming cuts whitespace-only ends and keeps a contiguous core that neither starts nor ends with whitespace |
| `Text.TrimEmptyIffBlank` | components/Timesheet.tsx:56 | the trimmed text is empty exactly when the text is all whitespace |
| `Text.TrimIdempotent` | components/Timesheet.tsx:57 | trimming twice is trimming once |
| `Seqs.Filter` | components/Kanban.tsx:65 | an element is kept exactly when it is in the list and passes the test, as often as it occurs there, in the original order |
| `Seqs.FindIndex` | components/Kanban.tsx:51 | the first position passing the test, or -1 exactly when none does |
| `Seqs.Find` | components/Timesheet.tsx:64 | the first element passing the test, or none exactly when none does |

## Left out

- Persistence in `localStorage` and the `JSON.parse` fallbacks (App.tsx:28-88) are browser storage; only the empty-storage defaults are modelled (`App.Initial`); a `JSON.parse` failure falls back to other values (an empty task list, for one), which are not modelled.
- Drive initialisation, OAuth and the Drive file calls are network clients; drive readiness and the signed-in answer are inputs to `Sync.DebounceStep`, and a write's outcome is the event `WriteSucceeded` or `WriteFailed`.
- The settings tab's manual save, load and JSON download are I/O glue; its load feeds `App.LoadData`, which is modelled.
- The language-model calls (improve, extract, analyse the board) are foreign calls; their answers are parameters, and the board analysis is not modelled.
- Real timing: the five-second debounce and the three-second reset are abstract events, and the race between a manual save and the auto-save is not modelled.
- `parseFloat`, `Math.random`, `crypto.randomUUID` and `Date` are parameters; hours are exact reals, so floating-point rounding of sums is not modelled.
- A task status outside the three columns can only come from loaded data; `TaskStatus` excludes it, so the source's behaviour on it (moving right yields `todo`) is not modelled.
- The `checklist || []` fallbacks for tasks without a checklist are not modelled: every task has a checklist.
- Switching tabs from the sidebar, rendering, the chart library and `alert` are UI.
- `Notepad.HandleImprove`: the guard and the update are one step. The source checks the guard, waits for the language model, and then rewrites whatever the notes are by then, so text typed while waiting is overwritten; that interleaving is not modelled.
- `App.ExtractTasks`: likewise one step; notes or tasks changed while the language model is answering are not modelled.
- `Sync.Step`: a reset is not tied to the save that started it, so a stale reset may still shorten a later `success`; only `saving` and `error` are protected.
- Loading from Drive assumes the file reads back exactly what was written; the JSON round trip, which turns a note's `updatedAt` date into a string, is not modelled (`App.SaveThenLoadRestores` compares records, not text).
- `Sync.RunDebounce`: its own contract only bounds the attempts by the number of events; what it counts is stated by the lemmas about it.

## Findings

| source | as written | input that shows it | evidently intended | confidence | as-written member | corrected member |
|---|---|---|---|---|---|---|
| App.tsx:117-122 | after a successful write a three-second timer sets the status to `idle` unconditionally | save succeeds, a second save starts and fails within three seconds, then the first timer fires: the sidebar shows `idle`, labelled "Cloud Sincronizzato", although the last write failed | a reset only turns `success` into `idle`; `saving` and `error` stay | medium, not executed | `Sync.StepAsWritten` / `Sync.StaleResetHidesError` | `Sync.Step` / `Sync.ErrorPersists` |

=== FILE: app.dfy ===
/** The application shell: the four collections it owns, the operations on
    them that the tabs call back into (adding and removing projects, turning
    a note's suggestions into tasks), the snapshot written to the cloud file
    and the partial load that reads one back. */
module App {
  import opened Options
  import opened Types
  import Seqs
  import Text
  import Kanban
  import Timesheet
  import Notepad

  /** The sidebar tabs. */
  datatype Tab = TimesheetTab | KanbanTab | NotepadTab | SettingsTab

  /** The state the shell holds; the drive configuration and the auto-save
      flags are modelled in `Sync`. */
  datatype State = State(
    activeTab: Tab,
    projects: seq<Project>,
    entries: seq<TimesheetEntry>,
    notes: seq<Note>,
    tasks: seq<Task>)

  /** The projects a first start shows when nothing is stored. */
  const DefaultProjects: seq<Project> := [
    Project("1", "Sviluppo", "#4f46e5"),
    Project("2", "Formazione", "#0ea5e9"),
    Project("3", "Meeting", "#8b5cf6")]

  /** The tasks a first start shows when nothing is stored. */
  const DefaultTasks: seq<Task> := [
    Task("1", "Configurare ambiente di sviluppo", Done, High, []),
    Task("2", "Scrivere documentazione API", Todo, Medium, [ChecklistItem("c1", "Endpoint Login", false)])]

  /** The state of a first start with empty storage, on the timesheet tab. */
  const Initial: State := State(TimesheetTab, DefaultProjects, [], [], DefaultTasks)

  function ProjectIds(projects: seq<Project>): set<Id>
  {
    set p | p in projects :: p.id
  }

  /** The state the timesheet's reconciliation keeps: project ids are
      unique and every project has exactly one row of hours. */
  ghost predicate Consistent(s: State)
  {
    && Seqs.DistinctBy(ProjectId, s.projects)
    && Timesheet.OneEntryPerProject(s.projects, s.entries)
  }

  /** A first start has unique project and task ids, and once the
      timesheet has reconciled its rows the state is consistent. */
  lemma InitialIsConsistent()
    ensures Seqs.DistinctBy(ProjectId, Initial.projects)
    ensures Kanban.UniqueIds(Initial.tasks)
    ensures Consistent(Initial.(entries := Timesheet.Reconcile(Initial.projects, Initial.entries)))
  {
    var ids := ["1", "2", "3"];
    assert forall i :: 0 <= i < 3 ==> ProjectId(DefaultProjects[i]) == ids[i];
    assert forall i :: 0 <= i < 2 ==> TaskId(DefaultTasks[i]) == ids[i];
    assert Seqs.DistinctBy(ProjectId, Initial.projects) by {
      forall i, j | 0 <= i < j < 3 ensures ProjectId(DefaultProjects[i]) != ProjectId(DefaultProjects[j]) {
        assert ids[i] != ids[j];
      }
    }
    assert Kanban.UniqueIds(Initial.tasks) by {
      forall i, j | 0 <= i < j < 2 ensures TaskId(DefaultTasks[i]) != TaskId(DefaultTasks[j]) {
        assert ids[i] != ids[j];
      }
    }
    Timesheet.ReconcileOnePerProject(Initial.projects, Initial.entries);
  }

  // ---------------------------------------------------------------------
  // Projects

  /** Adds a project with the given name, a fresh id and a colour drawn by
      the caller; nothing but the project list changes. */
  function AddProject(s: State, name: string, freshId: Id, color: string): (r: State)
    requires freshId !in ProjectIds(s.projects)
    ensures |r.projects| == |s.projects| + 1
    ensures r.projects[..|s.projects|] == s.projects
    ensures r.projects[|s.projects|] == Project(freshId, name, color)
    ensures ProjectIds(r.projects) == ProjectIds(s.projects) + {freshId}
    ensures r.(projects := s.projects) == s
  {
    var r := s.(projects := s.projects + [Project(freshId, name, color)]);
    assert forall p :: p in r.projects <==> p in s.projects || p == Project(freshId, name, color);
    r
  }

  function KeepProject(id: Id): Project -> bool
  {
    (p: Project) => p.id != id
  }

  function KeepEntry(id: Id): TimesheetEntry -> bool
  {
    (e: TimesheetEntry) => e.projectId != id
  }

  /** Removes the project with the given id together with its rows of
      hours; everything else keeps its relative order. */
  function RemoveProject(s: State, id: Id): (r: State)
    ensures forall p :: p in r.projects <==> p in s.projects && p.id != id
    ensures forall e :: e in r.entries <==> e in s.entries && e.projectId != id
    ensures Seqs.Subsequence(r.projects, s.projects)
    ensures Seqs.Subsequence(r.entries, s.entries)
    ensures forall p :: multiset(r.projects)[p] == if p.id != id then multiset(s.projects)[p] else 0
    ensures forall e :: multiset(r.entries)[e] == if e.projectId != id then multiset(s.entries)[e] else 0
    ensures id !in ProjectIds(r.projects) && id !in Timesheet.EntryKeys(r.entries)
    ensures r.(projects := s.projects, entries := s.entries) == s
  {
    s.(projects := Seqs.Filter(KeepProject(id), s.projects),
       entries := Seqs.Filter(KeepEntry(id), s.entries))
  }

  /** Removing a project just added, before it has any hours, gives back
      the state before the addition. */
  lemma RemoveUndoesAdd(s: State, name: string, freshId: Id, color: string)
    requires freshId !in ProjectIds(s.projects)
    requires freshId !in Timesheet.EntryKeys(s.entries)
    ensures RemoveProject(AddProject(s, name, freshId, color), freshId) == s
  {
    var added := AddProject(s, name, freshId, color);
    Seqs.FilterAppend(KeepProject(freshId), s.projects, [Project(freshId, name, color)]);
    Seqs.FilterAll(KeepProject(freshId), s.projects);
    assert Seqs.Filter(KeepProject(freshId), [Project(freshId, name, color)]) == [];
    assert added.projects == s.projects + [Project(freshId, name, color)];
    Seqs.FilterAll(KeepEntry(freshId), s.entries);
  }

  /** Empties the project list and the rows of hours. */
  function ClearAllProjects(s: State): (r: State)
    ensures r.projects == [] && r.entries == []
    ensures r.(projects := s.projects, entries := s.entries) == s
  {
    s.(projects := [], entries := [])
  }

  /** The project form's submit button: a name that is blank after trimming
      is ignored and the field keeps its text; otherwise the trimmed name is
      added and the field is emptied. The new project's name is never
      empty and has no surrounding whitespace. */
  function SubmitProject(s: State, field: string, freshId: Id, color: string): (r: (State, string))
    requires freshId !in ProjectIds(s.projects)
    ensures Text.IsBlank(field) ==> r == (s, field)
    ensures !Text.IsBlank(field) ==>
              && r == (AddProject(s, Text.Trim(field), freshId, color), "")
              && var name := r.0.projects[|s.projects|].name;
                 name != [] && !Text.IsWhitespace(name[0]) && !Text.IsWhitespace(name[|name| - 1])
  {
    var (name, rest) := Timesheet.SubmitProjectName(field);
    match name
    case None => (s, rest)
    case Some(n) =>
      Text.TrimEmptyIffBlank(field);
      Text.TrimIsCore(field);
      (AddProject(s, n, freshId, color), rest)
  }

  /** The three project operations, each followed by the timesheet's
      reconciliation of its rows (the effect that runs whenever the project
      list changes). */
  datatype ProjectOp =
    | AddOp(name: string, freshId: Id, color: string)
    | RemoveOp(id: Id)
    | ClearOp

  predicate Applicable(s: State, op: ProjectOp)
  {
    op.AddOp? ==> op.freshId !in ProjectIds(s.projects)
  }

  /** The rows an operation keeps before reconciliation appends to them. */
  function KeptRows(s: State, op: ProjectOp): seq<TimesheetEntry>
  {
    match op
    case AddOp(_, _, _) => s.entries
    case RemoveOp(id) => RemoveProject(s, id).entries
    case ClearOp => []
  }

  function ApplyProjectOp(s: State, op: ProjectOp): (r: State)
    requires Applicable(s, op)
    ensures var kept := KeptRows(s, op);
            && |kept| <= |r.entries| && r.entries[..|kept|] == kept
            && forall k :: |kept| <= k < |r.entries| ==>
                 && r.entries[k].hours == Timesheet.ZeroHours
                 && r.entries[k].projectId in ProjectIds(r.projects)
                 && r.entries[k].projectId !in Timesheet.EntryKeys(kept)
    ensures forall p :: p in r.projects ==> p.id in Timesheet.EntryKeys(r.entries)
    ensures op.RemoveOp? ==> op.id !in ProjectIds(r.projects) && op.id !in Timesheet.EntryKeys(r.entries)
    ensures op.ClearOp? ==> r.projects == [] && r.entries == []
    ensures op.AddOp? ==> r.projects == AddProject(s, op.name, op.freshId, op.color).projects
    ensures op.AddOp? ==> |s.entries| <= |r.entries| && r.entries[..|s.entries|] == s.entries
    ensures op.AddOp? && op.freshId !in Timesheet.EntryKeys(s.entries) ==>
              TimesheetEntry(op.freshId, Timesheet.ZeroHours) in r.entries[|s.entries|..]
    ensures op.RemoveOp? ==> r.projects == RemoveProject(s, op.id).projects
    ensures op.RemoveOp? ==>
              var kept := RemoveProject(s, op.id).entries;
              |kept| <= |r.entries| && r.entries[..|kept|] == kept
    ensures r.(projects := s.projects, entries := s.entries) == s
  {
    var s1 := match op
      case AddOp(name, freshId, color) => AddProject(s, name, freshId, color)
      case RemoveOp(id) => RemoveProject(s, id)
      case ClearOp => ClearAllProjects(s);
    var r := s1.(entries := Timesheet.Reconcile(s1.projects, s1.entries));
    assert KeptRows(s, op) == s1.entries;
    forall k | |s1.entries| <= k < |r.entries| ensures r.entries[k].projectId in ProjectIds(r.projects) {
      var p :| p in s1.projects && p.id == r.entries[k].projectId;
    }
    assert op.AddOp? && op.freshId !in Timesheet.EntryKeys(s.entries) ==>
             TimesheetEntry(op.freshId, Timesheet.ZeroHours) in r.entries[|s.entries|..] by {
      if op.AddOp? && op.freshId !in Timesheet.EntryKeys(s.entries) {
        assert s1.projects[|s.projects|] == Project(op.freshId, op.name, op.color);
        NewProjectGetsZeroRow(s1.projects, s1.entries, Project(op.freshId, op.name, op.color));
      }
    }
    assert op.RemoveOp? ==> op.id !in Timesheet.EntryKeys(r.entries) by {
      if op.RemoveOp? {
        forall k | 0 <= k < |r.entries| ensures r.entries[k].projectId != op.id {
          if k < |s1.entries| {
            assert r.entries[k] in s1.entries;
          }
        }
      }
    }
    r
  }

  /** A project that had no row gets a zero row among the added ones. */
  lemma NewProjectGetsZeroRow(projects: seq<Project>, entries: seq<TimesheetEntry>, p: Project)
    requires p in projects && p.id !in Timesheet.EntryKeys(entries)
    ensures TimesheetEntry(p.id, Timesheet.ZeroHours) in Timesheet.Reconcile(projects, entries)[|entries|..]
  {
    var r := Timesheet.Reconcile(projects, entries);
    assert p.id in Timesheet.EntryKeys(r);
    assert forall j :: 0 <= j < |entries| ==> r[j] == entries[j] && entries[j] in entries;
    var k :| 0 <= k < |r| && r[k].projectId == p.id;
    assert r[k] == TimesheetEntry(p.id, Timesheet.ZeroHours);
    assert r[|entries|..][k - |entries|] == r[k];
  }

  /** Every project operation, followed by reconciliation, keeps the state
      consistent: ids stay unique and each project keeps exactly one row. */
  lemma ApplyKeepsConsistent(s: State, op: ProjectOp)
    requires Applicable(s, op)
    requires Consistent(s)
    ensures Consistent(ApplyProjectOp(s, op))
  {
    match op
    case AddOp(name, freshId, color) =>
      var s1 := AddProject(s, name, freshId, color);
      var p := Project(freshId, name, color);
      forall x, y | x in s.projects && y in [p] ensures ProjectId(x) != ProjectId(y) {
        assert x.id in ProjectIds(s.projects);
      }
      Seqs.DistinctAppend(ProjectId, s.projects, [p]);
      assert s1.projects == s.projects + [p];
      Timesheet.ReconcileOnePerProject(s1.projects, s1.entries);
    case RemoveOp(id) =>
      var s1 := RemoveProject(s, id);
      Seqs.FilterDistinct(KeepProject(id), ProjectId, s.projects);
      Seqs.FilterDistinct(KeepEntry(id), EntryProject, s.entries);
      Timesheet.ReconcileOnePerProject(s1.projects, s1.entries);
    case ClearOp =>
      Timesheet.ReconcileOnePerProject([], []);
  }

  // ---------------------------------------------------------------------
  // Tasks from a note

  /** New to-do tasks of medium priority, one per text, with the given ids. */
  function NewTasks(texts: seq<string>, ids: seq<Id>): (r: seq<Task>)
    requires |ids| == |texts|
    ensures |r| == |texts|
    ensures forall i :: 0 <= i < |r| ==> r[i] == Kanban.NewTask(ids[i], texts[i], Medium)
  {
    seq(|texts|, i requires 0 <= i < |texts| => Kanban.NewTask(ids[i], texts[i], Medium))
  }

  /** The ids drawn for new tasks differ from each other and from every
      task already on the board. */
  ghost predicate FreshTaskIds(ids: seq<Id>, tasks: seq<Task>)
  {
    && (forall i, j :: 0 <= i < j < |ids| ==> ids[i] != ids[j])
    && (forall i :: 0 <= i < |ids| ==> ids[i] !in Kanban.TaskIds(tasks))
  }

  /** Appends one to-do task of medium priority with an empty checklist per
      text, in order, and switches to the board. */
  function CreateTasksFromNote(s: State, texts: seq<string>, freshIds: seq<Id>): (r: State)
    requires |freshIds| == |texts| && FreshTaskIds(freshIds, s.tasks)
    ensures |r.tasks| == |s.tasks| + |texts|
    ensures r.tasks[..|s.tasks|] == s.tasks
    ensures forall i :: 0 <= i < |texts| ==>
              r.tasks[|s.tasks| + i] == Task(freshIds[i], texts[i], Todo, Medium, [])
    ensures r.activeTab == KanbanTab
    ensures r.(activeTab := s.activeTab, tasks := s.tasks) == s
  {
    var r := s.(activeTab := KanbanTab, tasks := s.tasks + NewTasks(texts, freshIds));
    assert r.tasks[..|s.tasks|] == s.tasks;
    r
  }

  /** Fresh ids keep the task ids unique. */
  lemma CreateTasksKeepsIdsUnique(s: State, texts: seq<string>, freshIds: seq<Id>)
    requires |freshIds| == |texts| && FreshTaskIds(freshIds, s.tasks)
    requires Kanban.UniqueIds(s.tasks)
    ensures Kanban.UniqueIds(CreateTasksFromNote(s, texts, freshIds).tasks)
  {
    var added := NewTasks(texts, freshIds);
    assert Seqs.DistinctBy(TaskId, added) by {
      forall i, j | 0 <= i < j < |added| ensures TaskId(added[i]) != TaskId(added[j]) {
      }
    }
    forall x, y | x in s.tasks && y in added ensures TaskId(x) != TaskId(y) {
      var j :| 0 <= j < |added| && added[j] == y;
      assert x.id in Kanban.TaskIds(s.tasks);
    }
    Seqs.DistinctAppend(TaskId, s.tasks, added);
    assert CreateTasksFromNote(s, texts, freshIds).tasks == s.tasks + added;
  }

  /** The new tasks all land in the first column: its count grows by the
      number of texts and the other two columns keep theirs. */
  lemma CreateTasksFillsTodo(s: State, texts: seq<string>, freshIds: seq<Id>)
    requires |freshIds| == |texts| && FreshTaskIds(freshIds, s.tasks)
    ensures var r := CreateTasksFromNote(s, texts, freshIds);
            && Kanban.ColumnCount(r.tasks, Todo) == Kanban.ColumnCount(s.tasks, Todo) + |texts|
            && Kanban.ColumnCount(r.tasks, Doing) == Kanban.ColumnCount(s.tasks, Doing)
            && Kanban.ColumnCount(r.tasks, Done) == Kanban.ColumnCount(s.tasks, Done)
  {
    var added := NewTasks(texts, freshIds);
    assert CreateTasksFromNote(s, texts, freshIds).tasks == s.tasks + added;
    Seqs.FilterAppend(Kanban.InColumn(Todo), s.tasks, added);
    Seqs.FilterAppend(Kanban.InColumn(Doing), s.tasks, added);
    Seqs.FilterAppend(Kanban.InColumn(Done), s.tasks, added);
    Seqs.FilterAll(Kanban.InColumn(Todo), added);
    Seqs.FilterNone(Kanban.InColumn(Doing), added);
    Seqs.FilterNone(Kanban.InColumn(Done), added);
  }

  /** "Extract tasks" in the notepad: nothing happens without an open note
      with content, or when the language model (`suggested`) finds no
      tasks; otherwise the suggestions become tasks. */
  function ExtractTasks(s: State, activeId: Option<Id>, suggested: seq<string>, freshIds: seq<Id>): (r: State)
    requires |freshIds| == |suggested| && FreshTaskIds(freshIds, s.tasks)
    ensures !Notepad.CanAssist(s.notes, activeId) || |suggested| == 0 ==> r == s
    ensures Notepad.CanAssist(s.notes, activeId) && |suggested| > 0 ==>
              r == CreateTasksFromNote(s, suggested, freshIds)
    ensures r.notes == s.notes && r.projects == s.projects && r.entries == s.entries
  {
    if !Notepad.CanAssist(s.notes, activeId) then s
    else if |suggested| == 0 then s
    else CreateTasksFromNote(s, suggested, freshIds)
  }

  /** Extracting tasks with fresh ids keeps the task ids unique, and the
      first column grows by the number of suggestions exactly when the open
      note has content. */
  lemma ExtractTasksFillsTodo(s: State, activeId: Option<Id>, suggested: seq<string>, freshIds: seq<Id>)
    requires |freshIds| == |suggested| && FreshTaskIds(freshIds, s.tasks)
    requires Kanban.UniqueIds(s.tasks)
    ensures var r := ExtractTasks(s, activeId, suggested, freshIds);
            && Kanban.UniqueIds(r.tasks)
            && Kanban.ColumnCount(r.tasks, Todo)
               == Kanban.ColumnCount(s.tasks, Todo) + (if Notepad.CanAssist(s.notes, activeId) then |suggested| else 0)
  {
    if Notepad.CanAssist(s.notes, activeId) && |suggested| > 0 {
      CreateTasksKeepsIdsUnique(s, suggested, freshIds);
      CreateTasksFillsTodo(s, suggested, freshIds);
    }
  }

  /** A new note, written "Buy milk. Call Mario.", from which the language
      model extracts two tasks: both are appended as to-do tasks of medium
      priority with empty checklists, and the board is shown. */
  lemma ExtractScenario(s: State, noteId: Id, now: Timestamp, id1: Id, id2: Id)
    requires noteId !in Notepad.NoteIds(s.notes)
    requires id1 != id2 && id1 !in Kanban.TaskIds(s.tasks) && id2 !in Kanban.TaskIds(s.tasks)
    ensures var pad := Notepad.CreateNote(Notepad.Pad(s.notes, None), noteId, now);
            var notes := Notepad.UpdateNote(pad.notes, noteId, Notepad.NotePatch(None, Some("Buy milk. Call Mario.")), now);
            var r := ExtractTasks(s.(notes := notes), pad.activeId, ["Buy milk", "Call Mario"], [id1, id2]);
            && r.tasks == s.tasks + [Task(id1, "Buy milk", Todo, Medium, []), Task(id2, "Call Mario", Todo, Medium, [])]
            && r.activeTab == KanbanTab
            && r.notes == notes
  {
    var pad := Notepad.CreateNote(Notepad.Pad(s.notes, None), noteId, now);
    var patch := Notepad.NotePatch(None, Some("Buy milk. Call Mario."));
    var notes := Notepad.UpdateNote(pad.notes, noteId, patch, now);
    Notepad.UpdateNoteKeepsActive(pad.notes, noteId, patch, now);
    var a := Notepad.ActiveNote(notes, pad.activeId);
    assert a == Some(Notepad.Patched(pad.notes[0], noteId, patch, now));
    assert a.value.content == "Buy milk. Call Mario.";
    assert Notepad.CanAssist(notes, pad.activeId);
    var r := ExtractTasks(s.(notes := notes), pad.activeId, ["Buy milk", "Call Mario"], [id1, id2]);
    assert r.tasks[..|s.tasks|] == s.tasks;
    assert r.tasks[|s.tasks|..] == [Task(id1, "Buy milk", Todo, Medium, []), Task(id2, "Call Mario", Todo, Medium, [])];
    assert r.tasks == r.tasks[..|s.tasks|] + r.tasks[|s.tasks|..];
  }

  // ---------------------------------------------------------------------
  // Snapshot and load

  /** The snapshot written to the cloud file: the four collections as they
      are, stamped with the ISO-8601 time `now`. */
  function GetCurrentData(s: State, now: string): (r: SyncedData)
    ensures r.projects == s.projects && r.entries == s.entries
    ensures r.notes == s.notes && r.tasks == s.tasks
    ensures r.lastUpdated == now
  {
    SyncedData(s.projects, s.entries, s.notes, s.tasks, now)
  }

  /** Data read back from a file: any of the four keys may be missing. */
  datatype Loaded = Loaded(
    projects: Option<seq<Project>>,
    entries: Option<seq<TimesheetEntry>>,
    notes: Option<seq<Note>>,
    tasks: Option<seq<Task>>)

  /** What reading a file written from `d` yields: every key is present. */
  function FileContents(d: SyncedData): (r: Loaded)
    ensures r.projects.Some? && r.entries.Some? && r.notes.Some? && r.tasks.Some?
  {
    Loaded(Some(d.projects), Some(d.entries), Some(d.notes), Some(d.tasks))
  }

  /** Replaces each local collection whose key the data has (an empty list
      counts as present) and keeps the others; the active tab stays. */
  function LoadData(s: State, data: Loaded): (r: State)
    ensures r.activeTab == s.activeTab
    ensures data.projects.Some? ==> r.projects == data.projects.value
    ensures data.projects.None? ==> r.projects == s.projects
    ensures data.entries.Some? ==> r.entries == data.entries.value
    ensures data.entries.None? ==> r.entries == s.entries
    ensures data.notes.Some? ==> r.notes == data.notes.value
    ensures data.notes.None? ==> r.notes == s.notes
    ensures data.tasks.Some? ==> r.tasks == data.tasks.value
    ensures data.tasks.None? ==> r.tasks == s.tasks
  {
    State(
      s.activeTab,
      data.projects.GetOr(s.projects),
      data.entries.GetOr(s.entries),
      data.notes.GetOr(s.notes),
      data.tasks.GetOr(s.tasks))
  }

  /** Saving and loading back restores every collection, whatever the
      state being loaded into. */
  lemma SaveThenLoadRestores(s: State, t: State, now: string)
    ensures LoadData(t, FileContents(GetCurrentData(s, now))) == s.(activeTab := t.activeTab)
  {
  }

  /** Loading the same data twice is loading it once. */
  lemma LoadDataIdempotent(s: State, data: Loaded)
    ensures LoadData(LoadData(s, data), data) == LoadData(s, data)
  {
  }
}

=== FILE: kanban.dfy ===
/** The task board: three status columns, tasks that move one column at a
    time, and an edit dialog that works on a draft copy of one task (its
    content, priority and checklist) until it is saved or discarded. */
module Kanban {
  import opened Options
  import opened Types
  import Seqs
  import Text

  /** The columns, left to right. */
  const Columns: seq<TaskStatus> := [Todo, Doing, Done]

  datatype Direction = Left | Right

  function IsColumn(s: TaskStatus): TaskStatus -> bool
  {
    (c: TaskStatus) => c == s
  }

  /** The position of a status among the columns (`COLUMNS.findIndex`). */
  function ColumnIndex(s: TaskStatus): (i: int)
    ensures 0 <= i < |Columns| && Columns[i] == s
  {
    assert IsColumn(s)(Columns[match s case Todo => 0 case Doing => 1 case Done => 2]);
    Seqs.FindIndex(IsColumn(s), Columns)
  }

  /** `to` is where one move in direction `d` takes a task in column
      `from`: the neighbouring column, or `from` itself at either end. */
  ghost predicate StepsTo(from: TaskStatus, to: TaskStatus, d: Direction)
  {
    match d
    case Right => if from == Done then to == from else ColumnIndex(to) == ColumnIndex(from) + 1
    case Left => if from == Todo then to == from else ColumnIndex(to) == ColumnIndex(from) - 1
  }

  /** The status a task has after one move: the index moves by one and is
      bounds-checked against the column list. */
  function MoveStatus(s: TaskStatus, d: Direction): (r: TaskStatus)
    ensures StepsTo(s, r, d)
  {
    var current := ColumnIndex(s);
    var next := if d == Right then current + 1 else current - 1;
    if next < 0 then s
    else if next >= |Columns| then s
    else Columns[next]
  }

  /** The ids in use on the board. */
  function TaskIds(tasks: seq<Task>): set<Id>
  {
    set t | t in tasks :: t.id
  }

  /** No two tasks share an id. */
  ghost predicate UniqueIds(tasks: seq<Task>)
  {
    Seqs.DistinctBy(TaskId, tasks)
  }

  /** A task as it is first created: in the first column, with an empty
      checklist. */
  function NewTask(id: Id, content: string, priority: Priority): Task
  {
    Task(id, content, Todo, priority, [])
  }

  function KeepOther(id: Id): Task -> bool
  {
    (t: Task) => t.id != id
  }

  function HasId(id: Id): Task -> bool
  {
    (t: Task) => t.id == id
  }

  function MoveOne(t: Task, id: Id, d: Direction): Task
  {
    if t.id != id then t else t.(status := MoveStatus(t.status, d))
  }

  /** Moves every task with the given id one column in direction `d`. */
  function MoveTask(tasks: seq<Task>, id: Id, d: Direction): (r: seq<Task>)
    ensures |r| == |tasks|
    ensures forall i :: 0 <= i < |tasks| && tasks[i].id != id ==> r[i] == tasks[i]
    ensures forall i :: 0 <= i < |tasks| && tasks[i].id == id ==>
              r[i] == tasks[i].(status := r[i].status) && StepsTo(tasks[i].status, r[i].status, d)
  {
    seq(|tasks|, i requires 0 <= i < |tasks| => MoveOne(tasks[i], id, d))
  }

  /** Moving right and then left puts every task back, provided no task
      with that id was already in the last column. */
  lemma MoveRightThenLeft(tasks: seq<Task>, id: Id)
    requires forall t :: t in tasks && t.id == id ==> t.status != Done
    ensures MoveTask(MoveTask(tasks, id, Right), id, Left) == tasks
  {
  }

  /** Moving left and then right puts every task back, provided no task
      with that id was already in the first column. */
  lemma MoveLeftThenRight(tasks: seq<Task>, id: Id)
    requires forall t :: t in tasks && t.id == id ==> t.status != Todo
    ensures MoveTask(MoveTask(tasks, id, Left), id, Right) == tasks
  {
  }

  /** Removes every task with the given id. */
  function DeleteTask(tasks: seq<Task>, id: Id): (r: seq<Task>)
    ensures forall t :: t in r <==> t in tasks && t.id != id
    ensures Seqs.Subsequence(r, tasks)
    ensures |r| + |Seqs.Filter(HasId(id), tasks)| == |tasks|
    ensures forall t :: multiset(r)[t] == if t.id != id then multiset(tasks)[t] else 0
  {
    Seqs.FilterPartition(KeepOther(id), HasId(id), tasks);
    Seqs.Filter(KeepOther(id), tasks)
  }

  /** The board component's state: the task list it edits, the new-task
      form, the task being edited (if any) and the new-checklist-item field. */
  datatype Board = Board(
    tasks: seq<Task>,
    newContent: string,
    newPriority: Priority,
    editing: Option<Task>,
    newItemText: string)

  /** Submitting the new-task form. A blank content is ignored and leaves
      the form as it is; otherwise one task is appended (with the content as
      typed, not trimmed) and the form is reset. */
  function AddTask(b: Board, freshId: Id): (r: Board)
    requires freshId !in TaskIds(b.tasks)
    ensures Text.IsBlank(b.newContent) ==> r == b
    ensures !Text.IsBlank(b.newContent) ==>
              && |r.tasks| == |b.tasks| + 1
              && r.tasks[..|b.tasks|] == b.tasks
              && r.tasks[|b.tasks|] == NewTask(freshId, b.newContent, b.newPriority)
              && r.newContent == "" && r.newPriority == Medium
              && r.editing == b.editing && r.newItemText == b.newItemText
  {
    Text.TrimEmptyIffBlank(b.newContent);
    if Text.Trim(b.newContent) == "" then b
    else b.(tasks := b.tasks + [NewTask(freshId, b.newContent, b.newPriority)],
            newContent := "", newPriority := Medium)
  }

  /** Adding a task with a fresh id keeps the ids unique. */
  lemma AddTaskKeepsIdsUnique(b: Board, freshId: Id)
    requires freshId !in TaskIds(b.tasks)
    requires UniqueIds(b.tasks)
    ensures UniqueIds(AddTask(b, freshId).tasks)
  {
    if !Text.IsBlank(b.newContent) {
      var t := NewTask(freshId, b.newContent, b.newPriority);
      assert AddTask(b, freshId).tasks == b.tasks + [t];
      Seqs.DistinctAppend(TaskId, b.tasks, [t]);
    }
  }

  /** Deleting the task just added gives back the list as it was. */
  lemma DeleteUndoesAdd(b: Board, freshId: Id)
    requires freshId !in TaskIds(b.tasks)
    ensures DeleteTask(AddTask(b, freshId).tasks, freshId) == b.tasks
  {
    Seqs.FilterAll(KeepOther(freshId), b.tasks);
    if !Text.IsBlank(b.newContent) {
      var t := NewTask(freshId, b.newContent, b.newPriority);
      assert AddTask(b, freshId).tasks == b.tasks + [t];
      Seqs.FilterAppend(KeepOther(freshId), b.tasks, [t]);
      assert Seqs.Filter(KeepOther(freshId), [t]) == [];
    }
  }

  /** Opening a task card puts a copy of it in the edit dialog; the rest of
      the board, including the new-item field, stays as it was. */
  function OpenTask(b: Board, t: Task): (r: Board)
    ensures r.editing == Some(t)
    ensures r == b.(editing := r.editing)
  {
    b.(editing := Some(t))
  }

  /** Closing the dialog (its close button or "cancel") drops the draft and
      leaves the rest of the board as it was. */
  function CloseEditor(b: Board): (r: Board)
    ensures r.editing.None?
    ensures r == b.(editing := r.editing)
  {
    b.(editing := None)
  }

  /** Typing in the dialog's content field changes only the draft. */
  function SetDraftContent(b: Board, content: string): (r: Board)
    ensures r == b.(editing := r.editing)
    ensures b.editing.None? ==> r == b
    ensures b.editing.Some? ==> r.editing == Some(b.editing.value.(content := content))
  {
    match b.editing
    case None => b
    case Some(d) => b.(editing := Some(d.(content := content)))
  }

  /** Picking a priority in the dialog changes only the draft. */
  function SetDraftPriority(b: Board, p: Priority): (r: Board)
    ensures r == b.(editing := r.editing)
    ensures b.editing.None? ==> r == b
    ensures b.editing.Some? ==> r.editing == Some(b.editing.value.(priority := p))
  {
    match b.editing
    case None => b
    case Some(d) => b.(editing := Some(d.(priority := p)))
  }

  function Replace(t: Task, draft: Task): Task
  {
    if t.id == draft.id then draft else t
  }

  /** Saving the dialog: every task whose id is the draft's becomes the
      draft, nothing else changes, and the dialog closes. */
  function SaveTask(b: Board): (r: Board)
    ensures r.editing.None?
    ensures b.editing.None? ==> r == b
    ensures |r.tasks| == |b.tasks|
    ensures b.editing.Some? ==> forall i :: 0 <= i < |b.tasks| ==>
              (b.tasks[i].id == b.editing.value.id ==> r.tasks[i] == b.editing.value)
              && (b.tasks[i].id != b.editing.value.id ==> r.tasks[i] == b.tasks[i])
    ensures r == b.(tasks := r.tasks, editing := None)
  {
    match b.editing
    case None => b
    case Some(draft) =>
      b.(tasks := seq(|b.tasks|, i requires 0 <= i < |b.tasks| => Replace(b.tasks[i], draft)),
         editing := None)
  }

  /** Opening a task and saving it without changes leaves the list as it
      was, when ids are unique. */
  lemma SaveUnchangedDraftIsNoOp(b: Board, t: Task)
    requires UniqueIds(b.tasks)
    requires t in b.tasks
    ensures SaveTask(OpenTask(b, t)).tasks == b.tasks
  {
    var k :| 0 <= k < |b.tasks| && b.tasks[k] == t;
    var r := SaveTask(OpenTask(b, t)).tasks;
    forall i | 0 <= i < |b.tasks| ensures r[i] == b.tasks[i] {
      if b.tasks[i].id == t.id {
        Seqs.DistinctAt(TaskId, b.tasks, i, k);
      }
    }
  }

  /** The ids of a checklist's items. */
  function ItemIds(items: seq<ChecklistItem>): set<Id>
  {
    set c | c in items :: c.id
  }

  /** Submitting the new-checklist-item field while a task is open: a blank
      text is ignored; otherwise an unticked item with the trimmed text is
      appended to the draft's checklist and the field is cleared. The task
      list itself is never touched. */
  function AddChecklistItem(b: Board, freshId: Id): (r: Board)
    requires b.editing.Some? ==> freshId !in ItemIds(b.editing.value.checklist)
    ensures r.tasks == b.tasks
    ensures b.editing.None? || Text.IsBlank(b.newItemText) ==> r == b
    ensures b.editing.Some? && !Text.IsBlank(b.newItemText) ==>
              var d := b.editing.value;
              && r.editing.Some?
              && r.editing.value == d.(checklist := r.editing.value.checklist)
              && |r.editing.value.checklist| == |d.checklist| + 1
              && r.editing.value.checklist[..|d.checklist|] == d.checklist
              && r.editing.value.checklist[|d.checklist|] == ChecklistItem(freshId, Text.Trim(b.newItemText), false)
              && r.newItemText == ""
              && r == b.(editing := r.editing, newItemText := "")
  {
    Text.TrimEmptyIffBlank(b.newItemText);
    match b.editing
    case None => b
    case Some(d) =>
      if Text.Trim(b.newItemText) == "" then b
      else
        var item := ChecklistItem(freshId, Text.Trim(b.newItemText), false);
        b.(editing := Some(d.(checklist := d.checklist + [item])), newItemText := "")
  }

  function Toggle(c: ChecklistItem, itemId: Id): ChecklistItem
  {
    if c.id == itemId then c.(done := !c.done) else c
  }

  /** Flips the done flag of the items with the given id. */
  function ToggleItems(items: seq<ChecklistItem>, itemId: Id): (r: seq<ChecklistItem>)
    ensures |r| == |items|
    ensures forall i :: 0 <= i < |items| ==>
              r[i].id == items[i].id && r[i].text == items[i].text
              && (r[i].done <==> (items[i].done != (items[i].id == itemId)))
  {
    seq(|items|, i requires 0 <= i < |items| => Toggle(items[i], itemId))
  }

  /** Ticking or unticking a checklist item in the draft. */
  function ToggleChecklistItem(b: Board, itemId: Id): (r: Board)
    ensures r == b.(editing := r.editing)
    ensures b.editing.None? ==> r == b
    ensures b.editing.Some? ==> r.editing == Some(b.editing.value.(checklist := ToggleItems(b.editing.value.checklist, itemId)))
  {
    match b.editing
    case None => b
    case Some(d) => b.(editing := Some(d.(checklist := ToggleItems(d.checklist, itemId))))
  }

  /** Toggling the same item twice gives back the board as it was. */
  lemma ToggleTwiceIsIdentity(b: Board, itemId: Id)
    ensures ToggleChecklistItem(ToggleChecklistItem(b, itemId), itemId) == b
  {
    if b.editing.Some? {
      var items := b.editing.value.checklist;
      var twice := ToggleItems(ToggleItems(items, itemId), itemId);
      assert twice == items by {
        forall i | 0 <= i < |items| ensures twice[i] == items[i] {
        }
      }
    }
  }

  function KeepOtherItem(itemId: Id): ChecklistItem -> bool
  {
    (c: ChecklistItem) => c.id != itemId
  }

  /** Drops every item with the given id; the others stay in order, each
      as often as it occurred. */
  function RemoveItems(items: seq<ChecklistItem>, itemId: Id): (r: seq<ChecklistItem>)
    ensures forall c :: c in r <==> c in items && c.id != itemId
    ensures Seqs.Subsequence(r, items)
    ensures forall c :: multiset(r)[c] == if c.id != itemId then multiset(items)[c] else 0
  {
    Seqs.Filter(KeepOtherItem(itemId), items)
  }

  /** Deleting a checklist item from the draft. */
  function RemoveChecklistItem(b: Board, itemId: Id): (r: Board)
    ensures r == b.(editing := r.editing)
    ensures b.editing.None? ==> r == b
    ensures b.editing.Some? ==> r.editing == Some(b.editing.value.(checklist := RemoveItems(b.editing.value.checklist, itemId)))
  {
    match b.editing
    case None => b
    case Some(d) => b.(editing := Some(d.(checklist := RemoveItems(d.checklist, itemId))))
  }

  /** Removing the item just added gives back the draft's checklist. */
  lemma RemoveUndoesAddItem(b: Board, freshId: Id)
    requires b.editing.Some? && freshId !in ItemIds(b.editing.value.checklist)
    ensures RemoveChecklistItem(AddChecklistItem(b, freshId), freshId).editing == b.editing
  {
    var d := b.editing.value;
    var items := d.checklist;
    Seqs.FilterAll(KeepOtherItem(freshId), items);
    if !Text.IsBlank(b.newItemText) {
      var item := ChecklistItem(freshId, Text.Trim(b.newItemText), false);
      assert AddChecklistItem(b, freshId).editing == Some(d.(checklist := items + [item]));
      Seqs.FilterAppend(KeepOtherItem(freshId), items, [item]);
      assert Seqs.Filter(KeepOtherItem(freshId), [item]) == [];
      assert RemoveItems(items + [item], freshId) == items;
    } else {
      assert AddChecklistItem(b, freshId) == b;
      assert RemoveItems(items, freshId) == items;
    }
  }

  function InColumn(col: TaskStatus): Task -> bool
  {
    (t: Task) => t.status == col
  }

  /** The number shown in a column's header. */
  function ColumnCount(tasks: seq<Task>, col: TaskStatus): (n: nat)
    ensures n <= |tasks|
    ensures n == 0 <==> forall t :: t in tasks ==> t.status != col
    ensures n == |tasks| <==> forall t :: t in tasks ==> t.status == col
  {
    var r := Seqs.Filter(InColumn(col), tasks);
    Seqs.FilterKeepsAllIff(InColumn(col), tasks);
    assert r == [] <==> forall t :: t in tasks ==> !InColumn(col)(t);
    |r|
  }

  /** The three column counts add up to the number of tasks: every task is
      shown in exactly one column. */
  lemma {:induction false} ColumnCountsCoverBoard(tasks: seq<Task>)
    ensures ColumnCount(tasks, Todo) + ColumnCount(tasks, Doing) + ColumnCount(tasks, Done) == |tasks|
    decreases |tasks|
  {
    if |tasks| > 0 {
      ColumnCountsCoverBoard(tasks[1..]);
    }
  }

  function IsDone(c: ChecklistItem): bool
  {
    c.done
  }

  /** The ticked-item count on a card, shown as "ticked/total". */
  function DoneCount(items: seq<ChecklistItem>): (n: nat)
    ensures n <= |items|
    ensures n == |items| <==> forall c :: c in items ==> c.done
  {
    Seqs.FilterKeepsAllIff(IsDone, items);
    |Seqs.Filter(IsDone, items)|
  }
}

=== FILE: notepad.dfy ===
/** The notepad: a list of notes, newest first, one of which may be open in
    the editor, and the guards in front of the two AI-assist actions. */
module Notepad {
  import opened Options
  import opened Types
  import Seqs

  /** The title a new note starts with. */
  const NewNoteTitle: string := "Nuova Nota"

  /** The notepad's state: the note list it edits and the id of the open note. */
  datatype Pad = Pad(notes: seq<Note>, activeId: Option<Id>)

  function NoteIds(notes: seq<Note>): set<Id>
  {
    set n | n in notes :: n.id
  }

  /** No two notes share an id. */
  ghost predicate UniqueIds(notes: seq<Note>)
  {
    Seqs.DistinctBy(NoteId, notes)
  }

  function HasId(id: Id): Note -> bool
  {
    (n: Note) => n.id == id
  }

  /** The note shown in the editor: the first note whose id is the active
      id, if there is one. */
  function ActiveNote(notes: seq<Note>, activeId: Option<Id>): (r: Option<Note>)
    ensures activeId.None? ==> r.None?
    ensures r.Some? ==> activeId == Some(r.value.id)
    ensures r.Some? ==> exists i :: 0 <= i < |notes| && notes[i] == r.value && forall j :: 0 <= j < i ==> notes[j].id != r.value.id
    ensures activeId.Some? ==> (r.None? <==> activeId.value !in NoteIds(notes))
  {
    match activeId
    case None => None
    case Some(id) =>
      var r := Seqs.Find(HasId(id), notes);
      assert r.None? ==> forall n :: n in notes ==> n.id != id;
      r
  }

  /** The "new note" button: an empty note stamped `now` is put at the top
      of the list and opened. */
  function CreateNote(pad: Pad, freshId: Id, now: Timestamp): (r: Pad)
    requires freshId !in NoteIds(pad.notes)
    ensures |r.notes| == |pad.notes| + 1 && r.notes[1..] == pad.notes
    ensures r.notes[0] == Note(freshId, NewNoteTitle, "", now)
    ensures r.activeId == Some(freshId)
    ensures ActiveNote(r.notes, r.activeId) == Some(r.notes[0])
  {
    var n := Note(freshId, NewNoteTitle, "", now);
    var notes := [n] + pad.notes;
    assert Seqs.FindIndex(HasId(freshId), notes) == 0;
    Pad(notes, Some(freshId))
  }

  /** A new note with a fresh id keeps the note ids unique. */
  lemma CreateNoteKeepsIdsUnique(pad: Pad, freshId: Id, now: Timestamp)
    requires freshId !in NoteIds(pad.notes)
    requires UniqueIds(pad.notes)
    ensures UniqueIds(CreateNote(pad, freshId, now).notes)
  {
    var n := Note(freshId, NewNoteTitle, "", now);
    forall x, y | x in [n] && y in pad.notes ensures NoteId(x) != NoteId(y) {
    }
    Seqs.DistinctAppend(NoteId, [n], pad.notes);
  }

  /** The fields an edit sets: the title field, the content area, or the
      AI rewrite. */
  datatype NotePatch = NotePatch(title: Option<string>, content: Option<string>)

  function Patched(n: Note, id: Id, patch: NotePatch, now: Timestamp): Note
  {
    if n.id == id
    then n.(title := patch.title.GetOr(n.title), content := patch.content.GetOr(n.content), updatedAt := now)
    else n
  }

  /** Applies an edit to the notes with the given id and stamps them `now`;
      every other note, and the order, stay as they were. */
  function UpdateNote(notes: seq<Note>, id: Id, patch: NotePatch, now: Timestamp): (r: seq<Note>)
    ensures |r| == |notes|
    ensures forall i :: 0 <= i < |notes| && notes[i].id != id ==> r[i] == notes[i]
    ensures forall i :: 0 <= i < |notes| && notes[i].id == id ==>
              && r[i].id == id
              && (patch.title.Some? ==> r[i].title == patch.title.value)
              && (patch.title.None? ==> r[i].title == notes[i].title)
              && (patch.content.Some? ==> r[i].content == patch.content.value)
              && (patch.content.None? ==> r[i].content == notes[i].content)
              && r[i].updatedAt == now
  {
    seq(|notes|, i requires 0 <= i < |notes| => Patched(notes[i], id, patch, now))
  }

  /** Applying the same edit twice at the same moment is applying it once. */
  lemma UpdateNoteIdempotent(notes: seq<Note>, id: Id, patch: NotePatch, now: Timestamp)
    ensures UpdateNote(UpdateNote(notes, id, patch, now), id, patch, now) == UpdateNote(notes, id, patch, now)
  {
    var once := UpdateNote(notes, id, patch, now);
    var twice := UpdateNote(once, id, patch, now);
    forall i | 0 <= i < |notes| ensures twice[i] == once[i] {
    }
  }

  /** After an edit the open note is the edited version of the note that
      was open. */
  lemma UpdateNoteKeepsActive(notes: seq<Note>, id: Id, patch: NotePatch, now: Timestamp)
    ensures ActiveNote(UpdateNote(notes, id, patch, now), Some(id)) ==
              match ActiveNote(notes, Some(id))
              case None => None
              case Some(n) => Some(Patched(n, id, patch, now))
  {
    var r := UpdateNote(notes, id, patch, now);
    assert forall i :: 0 <= i < |notes| ==> (r[i].id == id <==> notes[i].id == id);
    var a := Seqs.FindIndex(HasId(id), notes);
    var b := Seqs.FindIndex(HasId(id), r);
    if a >= 0 {
      assert HasId(id)(r[a]);
      assert b == a;
    } else {
      assert forall j :: 0 <= j < |r| ==> !HasId(id)(r[j]);
    }
  }

  /** The two AI actions run only on an open note with some content. */
  predicate CanAssist(notes: seq<Note>, activeId: Option<Id>)
  {
    var a := ActiveNote(notes, activeId);
    a.Some? && a.value.content != ""
  }

  /** "Improve with AI": the open note's content is replaced by the text the
      language model returned (`improved`), and it is stamped `now`. */
  function HandleImprove(notes: seq<Note>, activeId: Option<Id>, improved: string, now: Timestamp): (r: seq<Note>)
    ensures !CanAssist(notes, activeId) ==> r == notes
    ensures CanAssist(notes, activeId) ==>
              && |r| == |notes|
              && ActiveNote(r, activeId) == Some(ActiveNote(notes, activeId).value.(content := improved, updatedAt := now))
    ensures CanAssist(notes, activeId) ==>
              forall i :: 0 <= i < |notes| && notes[i].id != activeId.value ==> r[i] == notes[i]
    ensures CanAssist(notes, activeId) ==>
              forall i :: 0 <= i < |notes| && notes[i].id == activeId.value ==>
                r[i] == notes[i].(content := improved, updatedAt := now)
  {
    if !CanAssist(notes, activeId) then notes
    else
      var n := ActiveNote(notes, activeId).value;
      UpdateNoteKeepsActive(notes, n.id, NotePatch(None, Some(improved)), now);
      UpdateNote(notes, n.id, NotePatch(None, Some(improved)), now)
  }
}

=== FILE: options.dfy ===
/** A value that may be absent: a lookup that finds nothing, a key missing
    from a loaded snapshot, a task draft that is not open. */
module Options {

  datatype Option<T> = None | Some(value: T) {

    /** The wrapped value, or `default` when there is none. */
    function GetOr(default: T): T
    {
      match this
      case Some(v) => v
      case None => default
    }
  }
}

=== FILE: seqs.dfy ===
/** The array operations the application is written with (`filter`, `find`,
    `findIndex`), as functions on sequences, together with the facts about
    them that the editors rely on. */
module Seqs {
  import opened Options

  /** The elements of `a` occur in `b` in the same order: `a` is `b` with
      some elements deleted. */
  ghost predicate Subsequence<T>(a: seq<T>, b: seq<T>)
    decreases |b|
  {
    && |a| <= |b|
    && (|| |a| == 0
        || (a[0] == b[0] && Subsequence(a[1..], b[1..]))
        || Subsequence(a, b[1..]))
  }

  /** No two elements of `s` share a key. */
  ghost predicate DistinctBy<T, K>(key: T -> K, s: seq<T>)
  {
    forall i, j :: 0 <= i < j < |s| ==> key(s[i]) != key(s[j])
  }

  /** `Array.prototype.filter`: the elements that `keep` accepts, in order,
      each as often as it occurs. */
  function Filter<T(!new)>(keep: T -> bool, s: seq<T>): (r: seq<T>)
    ensures forall x :: x in r <==> x in s && keep(x)
    ensures Subsequence(r, s)
    ensures forall x :: multiset(r)[x] == if keep(x) then multiset(s)[x] else 0
    decreases |s|
  {
    if |s| == 0 then []
    else
      assert s == [s[0]] + s[1..];
      var rest := Filter(keep, s[1..]);
      if keep(s[0]) then [s[0]] + rest else rest
  }

  /** `Array.prototype.findIndex`: the first position whose element `p`
      accepts, or -1 when there is none. */
  function FindIndex<T>(p: T -> bool, s: seq<T>): (i: int)
    ensures -1 <= i < |s|
    ensures 0 <= i ==> p(s[i]) && forall j :: 0 <= j < i ==> !p(s[j])
    ensures i == -1 <==> forall j :: 0 <= j < |s| ==> !p(s[j])
    decreases |s|
  {
    if |s| == 0 then -1
    else if p(s[0]) then 0
    else
      var k := FindIndex(p, s[1..]);
      if k == -1 then -1 else k + 1
  }

  /** `Array.prototype.find`: the first element that `p` accepts. */
  function Find<T(!new)>(p: T -> bool, s: seq<T>): (r: Option<T>)
    ensures r.None? <==> forall x :: x in s ==> !p(x)
    ensures r.Some? ==> exists i :: 0 <= i < |s| && s[i] == r.value && p(s[i]) && forall j :: 0 <= j < i ==> !p(s[j])
  {
    var i := FindIndex(p, s);
    if i < 0 then None else Some(s[i])
  }

  /** Keeping everything keeps the sequence as it is. */
  lemma {:induction false} FilterAll<T(!new)>(keep: T -> bool, s: seq<T>)
    requires forall x :: x in s ==> keep(x)
    ensures Filter(keep, s) == s
    decreases |s|
  {
    if |s| > 0 {
      assert s[0] in s;
      assert forall x :: x in s[1..] ==> x in s;
      FilterAll(keep, s[1..]);
      assert s == [s[0]] + s[1..];
    }
  }

  /** Keeping nothing gives the empty sequence. */
  lemma {:induction false} FilterNone<T(!new)>(keep: T -> bool, s: seq<T>)
    requires forall x :: x in s ==> !keep(x)
    ensures Filter(keep, s) == []
    decreases |s|
  {
    if |s| > 0 {
      assert s[0] in s;
      assert forall x :: x in s[1..] ==> x in s;
      FilterNone(keep, s[1..]);
    }
  }

  /** Filtering distributes over concatenation, so relative order is kept. */
  lemma {:induction false} FilterAppend<T(!new)>(keep: T -> bool, a: seq<T>, b: seq<T>)
    ensures Filter(keep, a + b) == Filter(keep, a) + Filter(keep, b)
    decreases |a|
  {
    if |a| == 0 {
      assert a + b == b;
    } else {
      assert (a + b)[0] == a[0];
      assert (a + b)[1..] == a[1..] + b;
      FilterAppend(keep, a[1..], b);
    }
  }

  /** What a filter keeps and what the complementary filter keeps add up to
      the whole sequence. */
  lemma {:induction false} FilterPartition<T(!new)>(keep: T -> bool, drop: T -> bool, s: seq<T>)
    requires forall x :: drop(x) == !keep(x)
    ensures |Filter(keep, s)| + |Filter(drop, s)| == |s|
    decreases |s|
  {
    if |s| > 0 {
      FilterPartition(keep, drop, s[1..]);
    }
  }

  /** A filter keeps distinct keys distinct. */
  lemma {:induction false} FilterDistinct<T(!new), K>(keep: T -> bool, key: T -> K, s: seq<T>)
    requires DistinctBy(key, s)
    ensures DistinctBy(key, Filter(keep, s))
    decreases |s|
  {
    if |s| > 0 {
      var rest := s[1..];
      assert DistinctBy(key, rest) by {
        forall i, j | 0 <= i < j < |rest| ensures key(rest[i]) != key(rest[j]) {
          assert rest[i] == s[i + 1] && rest[j] == s[j + 1];
        }
      }
      FilterDistinct(keep, key, rest);
      if keep(s[0]) {
        var r := Filter(keep, s);
        var tail := Filter(keep, rest);
        assert r == [s[0]] + tail;
        forall i, j | 0 <= i < j < |r| ensures key(r[i]) != key(r[j]) {
          if i == 0 {
            assert r[j] == tail[j - 1];
            assert tail[j - 1] in rest;
            var k :| 0 <= k < |rest| && rest[k] == tail[j - 1];
            assert s[k + 1] == r[j];
          } else {
            assert r[i] == tail[i - 1] && r[j] == tail[j - 1];
          }
        }
      }
    }
  }

  /** Concatenating two key-distinct sequences whose keys do not overlap
      gives a key-distinct sequence. */
  lemma DistinctAppend<T(!new), K>(key: T -> K, a: seq<T>, b: seq<T>)
    requires DistinctBy(key, a) && DistinctBy(key, b)
    requires forall x, y :: x in a && y in b ==> key(x) != key(y)
    ensures DistinctBy(key, a + b)
  {
    var c := a + b;
    forall i, j | 0 <= i < j < |c| ensures key(c[i]) != key(c[j]) {
      if j < |a| {
        assert c[i] == a[i] && c[j] == a[j];
      } else if i < |a| {
        assert c[i] == a[i] && c[j] == b[j - |a|];
        assert a[i] in a && b[j - |a|] in b;
      } else {
        assert c[i] == b[i - |a|] && c[j] == b[j - |a|];
      }
    }
  }

  /** A subsequence as long as the whole sequence is the whole sequence. */
  lemma {:induction false} SubsequenceOfSameLength<T>(a: seq<T>, b: seq<T>)
    requires Subsequence(a, b) && |a| == |b|
    ensures a == b
    decreases |b|
  {
    if |a| > 0 && a[0] == b[0] && Subsequence(a[1..], b[1..]) {
      SubsequenceOfSameLength(a[1..], b[1..]);
      assert a == [a[0]] + a[1..];
      assert b == [b[0]] + b[1..];
    }
  }

  /** A filter drops nothing exactly when it accepts every element. */
  lemma FilterKeepsAllIff<T(!new)>(keep: T -> bool, s: seq<T>)
    ensures |Filter(keep, s)| == |s| <==> forall x :: x in s ==> keep(x)
  {
    if forall x :: x in s ==> keep(x) {
      FilterAll(keep, s);
    }
    if |Filter(keep, s)| == |s| {
      SubsequenceOfSameLength(Filter(keep, s), s);
    }
  }

  /** In a key-distinct sequence, two positions with the same key are the
      same position. */
  lemma DistinctAt<T, K>(key: T -> K, s: seq<T>, i: int, j: int)
    requires DistinctBy(key, s)
    requires 0 <= i < |s| && 0 <= j < |s| && key(s[i]) == key(s[j])
    ensures i == j
  {
  }
}

=== FILE: sync.dfy ===
/** Cloud auto-save: the debounced effect that decides when a save is
    attempted, and the status shown in the sidebar while it runs.

    Time is abstract. `Changed` is one evaluation of the auto-save effect (a
    collection, the auto-save flag or drive readiness changed); `Elapsed` is
    the pending five-second timer firing; `ResetTimerFired` is a three-second
    status-reset timer firing. The drive write itself is an oracle whose
    outcome arrives as `WriteSucceeded` or `WriteFailed`. */
module Sync {

  /** Start-up versus steady state: the effect's first evaluation only
      leaves the initial phase (the "skip first run" guard). */
  datatype Phase = Initializing | Ready

  /** The effect's memory: its phase and whether a debounce timer is pending. */
  datatype Debouncer = Debouncer(phase: Phase, pending: bool)

  const Start: Debouncer := Debouncer(Initializing, false)

  datatype Trigger =
    | Changed(autoSaveEnabled: bool, driveReady: bool)
    | Elapsed(signedIn: bool)

  /** One step of the auto-save logic; `attempt` says whether a save starts.
      An evaluation first cancels the pending timer (the effect's cleanup),
      then, except on the first evaluation, schedules a new one when
      auto-save is on and the drive is ready. When the timer fires a save
      starts only if the user is signed in. */
  function DebounceStep(d: Debouncer, t: Trigger): (r: (Debouncer, bool))
    ensures r.0.phase == Ready || r.0.phase == d.phase
    ensures t.Elapsed? ==> r.0.phase == d.phase
    ensures t.Changed? ==> r.0.phase == Ready
    ensures r.1 ==> t.Elapsed? && t.signedIn && d.pending
    ensures DebounceInvariant(r.0)
    ensures r.0.pending ==> t.Changed? && t.autoSaveEnabled && t.driveReady && d.phase == Ready
    ensures t.Changed? && d.phase == Ready && t.autoSaveEnabled && t.driveReady ==> r.0.pending
    ensures t.Elapsed? && d.pending && t.signedIn ==> r.1
  {
    match t
    case Changed(enabled, ready) =>
      if d.phase == Initializing then (Debouncer(Ready, false), false)
      else if !enabled || !ready then (Debouncer(Ready, false), false)
      else
        assert d.phase == Ready;
        (Debouncer(Ready, true), false)
    case Elapsed(signedIn) =>
      if !d.pending then (d, false)
      else (d.(pending := false), signedIn)
  }

  /** Runs a sequence of triggers and counts the save attempts. */
  function RunDebounce(d: Debouncer, ts: seq<Trigger>): (r: (Debouncer, nat))
    ensures r.1 <= |ts|
    decreases |ts|
  {
    if |ts| == 0 then (d, 0)
    else
      var (d1, attempt) := DebounceStep(d, ts[0]);
      var (d2, n) := RunDebounce(d1, ts[1..]);
      (d2, n + (if attempt then 1 else 0))
  }

  /** The pending timer only exists once the first evaluation is over. */
  ghost predicate DebounceInvariant(d: Debouncer)
  {
    d.pending ==> d.phase == Ready
  }

  /** The first evaluation after start-up never leads to a save, however
      long the app then stays idle and whatever the flags say. */
  lemma {:induction false} FirstEvaluationNeverSaves(enabled: bool, ready: bool, fired: seq<bool>)
    ensures RunDebounce(Start, [Changed(enabled, ready)] + Timers(fired)).1 == 0
  {
    var ts := [Changed(enabled, ready)] + Timers(fired);
    assert ts[1..] == Timers(fired);
    IdleTimersNeverSave(Debouncer(Ready, false), fired);
  }

  /** Timer firings for the given signed-in answers. */
  function Timers(signedIn: seq<bool>): (r: seq<Trigger>)
    ensures |r| == |signedIn|
    ensures forall i :: 0 <= i < |r| ==> r[i] == Elapsed(signedIn[i])
  {
    seq(|signedIn|, i requires 0 <= i < |signedIn| => Elapsed(signedIn[i]))
  }

  /** With no timer pending, timer firings start nothing. */
  lemma {:induction false} IdleTimersNeverSave(d: Debouncer, fired: seq<bool>)
    requires !d.pending
    ensures RunDebounce(d, Timers(fired)).1 == 0
    decreases |fired|
  {
    if |fired| > 0 {
      assert Timers(fired)[1..] == Timers(fired[1..]);
      IdleTimersNeverSave(d, fired[1..]);
    }
  }

  /** Debounce: a burst of one or more evaluations with auto-save on and the
      drive ready, followed by one timer firing while signed in, produces
      exactly one save attempt, not one per change. */
  lemma {:induction false} BurstSavesOnce(d: Debouncer, burst: nat)
    requires d.phase == Ready && burst >= 1
    ensures RunDebounce(d, Burst(burst) + [Elapsed(true)]).1 == 1
    decreases burst
  {
    var ts := Burst(burst) + [Elapsed(true)];
    var d1 := DebounceStep(d, ts[0]).0;
    assert d1 == Debouncer(Ready, true);
    assert ts[1..] == Burst(burst - 1) + [Elapsed(true)];
    if burst > 1 {
      BurstSavesOnce(d1, burst - 1);
    } else {
      assert ts[1..] == [Elapsed(true)];
    }
  }

  /** From start-up: the first evaluation is skipped whatever the flags say,
      and a later burst with auto-save on and the drive ready, followed by a
      timer firing while signed in, saves exactly once. */
  lemma FirstEvaluationThenBurstSavesOnce(enabled: bool, ready: bool, burst: nat)
    requires burst >= 1
    ensures RunDebounce(Start, [Changed(enabled, ready)] + Burst(burst) + [Elapsed(true)]).1 == 1
  {
    var ts := [Changed(enabled, ready)] + Burst(burst) + [Elapsed(true)];
    assert ts[1..] == Burst(burst) + [Elapsed(true)];
    BurstSavesOnce(Debouncer(Ready, false), burst);
  }

  /** `n` evaluations in a row with auto-save on and the drive ready. */
  function Burst(n: nat): (r: seq<Trigger>)
    ensures |r| == n
    ensures forall i :: 0 <= i < n ==> r[i] == Changed(true, true)
  {
    seq(n, i => Changed(true, true))
  }

  /** The sidebar indicator. */
  datatype SyncStatus = Idle | Saving | Success | Error

  datatype StatusEvent = SaveStarted | WriteSucceeded | WriteFailed | ResetTimerFired

  /** The indicator together with the writes still in flight and the reset
      timers still pending; an event with nothing to come from (a write
      outcome with no write in flight, a reset with no timer) does nothing. */
  datatype Indicator = Indicator(status: SyncStatus, inFlight: nat, resetTimers: nat)

  const Quiet: Indicator := Indicator(Idle, 0, 0)

  /** How an event moves the counters, the same in both machines: a save
      puts one more write in flight; an outcome retires one, and a success
      also starts a reset timer; a reset retires its timer. An outcome with
      no write in flight, or a reset with no timer, changes nothing. */
  ghost predicate CountersFollow(s: Indicator, e: StatusEvent, r: Indicator)
  {
    match e
    case SaveStarted => r.inFlight == s.inFlight + 1 && r.resetTimers == s.resetTimers
    case WriteSucceeded =>
      if s.inFlight == 0 then r == s
      else r.inFlight == s.inFlight - 1 && r.resetTimers == s.resetTimers + 1
    case WriteFailed =>
      if s.inFlight == 0 then r == s
      else r.inFlight == s.inFlight - 1 && r.resetTimers == s.resetTimers
    case ResetTimerFired =>
      if s.resetTimers == 0 then r == s
      else r.inFlight == s.inFlight && r.resetTimers == s.resetTimers - 1
  }

  /** The indicator as the code drives it: a save sets `saving`; a finished
      write sets `success` and starts a reset timer, a failed one sets
      `error`; a reset timer sets `idle`, whatever the status is by then. */
  function StepAsWritten(s: Indicator, e: StatusEvent): (r: Indicator)
    ensures e == SaveStarted ==> r.status == Saving
    ensures e == WriteSucceeded && s.inFlight > 0 ==> r.status == Success && r.resetTimers == s.resetTimers + 1
    ensures e == WriteFailed && s.inFlight > 0 ==> r.status == Error && r.resetTimers == s.resetTimers
    ensures e == ResetTimerFired && s.resetTimers > 0 ==> r.status == Idle
    ensures CountersFollow(s, e, r)
  {
    match e
    case SaveStarted => s.(status := Saving, inFlight := s.inFlight + 1)
    case WriteSucceeded =>
      if s.inFlight == 0 then s
      else Indicator(Success, s.inFlight - 1, s.resetTimers + 1)
    case WriteFailed =>
      if s.inFlight == 0 then s
      else s.(status := Error, inFlight := s.inFlight - 1)
    case ResetTimerFired =>
      if s.resetTimers == 0 then s
      else s.(status := Idle, resetTimers := s.resetTimers - 1)
  }

  /** The indicator as intended: a reset timer only clears `success`. */
  function Step(s: Indicator, e: StatusEvent): (r: Indicator)
    ensures e == SaveStarted ==> r.status == Saving
    ensures e == WriteSucceeded && s.inFlight > 0 ==> r.status == Success && r.resetTimers == s.resetTimers + 1
    ensures e == WriteFailed && s.inFlight > 0 ==> r.status == Error && r.resetTimers == s.resetTimers
    ensures e == ResetTimerFired && s.resetTimers > 0 ==> (r.status == Idle <==> s.status == Success || s.status == Idle)
    ensures e == ResetTimerFired && s.status != Success ==> r.status == s.status
    ensures CountersFollow(s, e, r)
  {
    match e
    case SaveStarted => s.(status := Saving, inFlight := s.inFlight + 1)
    case WriteSucceeded =>
      if s.inFlight == 0 then s
      else Indicator(Success, s.inFlight - 1, s.resetTimers + 1)
    case WriteFailed =>
      if s.inFlight == 0 then s
      else s.(status := Error, inFlight := s.inFlight - 1)
    case ResetTimerFired =>
      if s.resetTimers == 0 then s
      else s.(status := if s.status == Success then Idle else s.status, resetTimers := s.resetTimers - 1)
  }

  /** A save the indicator itself started ends in `success` or `error`
      according to its outcome, in both machines and from any state. */
  lemma SaveShowsOutcome(s: Indicator)
    ensures StepAsWritten(StepAsWritten(s, SaveStarted), WriteSucceeded).status == Success
    ensures StepAsWritten(StepAsWritten(s, SaveStarted), WriteFailed).status == Error
    ensures Step(Step(s, SaveStarted), WriteSucceeded).status == Success
    ensures Step(Step(s, SaveStarted), WriteFailed).status == Error
  {
  }

  function RunAsWritten(s: Indicator, es: seq<StatusEvent>): Indicator
    decreases |es|
  {
    if |es| == 0 then s else RunAsWritten(StepAsWritten(s, es[0]), es[1..])
  }

  function Run(s: Indicator, es: seq<StatusEvent>): Indicator
    decreases |es|
  {
    if |es| == 0 then s else Run(Step(s, es[0]), es[1..])
  }

  /** A write that finishes is reported: once a write has failed, only a
      new save or another write finishing changes the indicator; reset
      timers leave `error` in place. */
  lemma {:induction false} ErrorPersists(s: Indicator, es: seq<StatusEvent>)
    requires s.status == Error
    requires forall i :: 0 <= i < |es| ==> es[i] == ResetTimerFired
    ensures Run(s, es).status == Error
    decreases |es|
  {
    if |es| > 0 {
      ErrorPersists(Step(s, es[0]), es[1..]);
    }
  }

  /** The same holds for `saving`: reset timers do not hide a save that is
      still running. */
  lemma {:induction false} SavingPersists(s: Indicator, es: seq<StatusEvent>)
    requires s.status == Saving
    requires forall i :: 0 <= i < |es| ==> es[i] == ResetTimerFired
    ensures Run(s, es).status == Saving
    decreases |es|
  {
    if |es| > 0 {
      SavingPersists(Step(s, es[0]), es[1..]);
    }
  }

  /** The interleaving that shows the difference: a save succeeds, a second
      save starts and fails before the first save's reset timer fires. As
      written the indicator ends `idle` ("synced") although the last write
      failed; with the intended step it ends `error`. */
  lemma StaleResetHidesError()
    ensures var trace := [SaveStarted, WriteSucceeded, SaveStarted, WriteFailed, ResetTimerFired];
            && RunAsWritten(Quiet, trace).status == Idle
            && Run(Quiet, trace).status == Error
  {
    var trace := [SaveStarted, WriteSucceeded, SaveStarted, WriteFailed, ResetTimerFired];
    var t1 := [WriteSucceeded, SaveStarted, WriteFailed, ResetTimerFired];
    var t2 := [SaveStarted, WriteFailed, ResetTimerFired];
    var t3 := [WriteFailed, ResetTimerFired];
    var t4 := [ResetTimerFired];
    assert trace[1..] == t1 && t1[1..] == t2 && t2[1..] == t3 && t3[1..] == t4 && t4[1..] == [];
    var s1 := Indicator(Saving, 1, 0);
    var s2 := Indicator(Success, 0, 1);
    var s3 := Indicator(Saving, 1, 1);
    var s4 := Indicator(Error, 0, 1);
    assert StepAsWritten(Quiet, SaveStarted) == s1 && Step(Quiet, SaveStarted) == s1;
    assert StepAsWritten(s1, WriteSucceeded) == s2 && Step(s1, WriteSucceeded) == s2;
    assert StepAsWritten(s2, SaveStarted) == s3 && Step(s2, SaveStarted) == s3;
    assert StepAsWritten(s3, WriteFailed) == s4 && Step(s3, WriteFailed) == s4;
    assert RunAsWritten(s4, t4) == Indicator(Idle, 0, 0);
    assert Run(s4, t4) == Indicator(Error, 0, 0);
    assert RunAsWritten(s3, t3) == RunAsWritten(s4, t4) && Run(s3, t3) == Run(s4, t4);
    assert RunAsWritten(s2, t2) == RunAsWritten(s3, t3) && Run(s2, t2) == Run(s3, t3);
    assert RunAsWritten(s1, t1) == RunAsWritten(s2, t2) && Run(s1, t1) == Run(s2, t2);
  }
}

=== FILE: text.dfy ===
/** `String.prototype.trim` and the blank test the forms use
    (`if (!text.trim()) return`). */
module Text {

  /** The characters `trim` removes: the ECMAScript WhiteSpace and
      LineTerminator code points (tab, vertical tab, form feed, space,
      no-break space, byte-order mark, the Unicode space separators, line
      feed, carriage return, line and paragraph separators). */
  predicate IsWhitespace(c: char)
  {
    || c == '\t' || c == '\n' || c == '\U{000B}' || c == '\U{000C}' || c == '\r'
    || c == ' ' || c == '\U{00A0}' || c == '\U{1680}'
    || ('\U{2000}' <= c <= '\U{200A}')
    || c == '\U{2028}' || c == '\U{2029}' || c == '\U{202F}' || c == '\U{205F}'
    || c == '\U{3000}' || c == '\U{FEFF}'
  }

  /** Every character of `s` is whitespace (the empty string included). */
  predicate IsBlank(s: string)
  {
    forall i :: 0 <= i < |s| ==> IsWhitespace(s[i])
  }

  /** The first position at or after `i` that does not hold whitespace,
      or `|s|` when there is none: where `trim`'s result starts. */
  function SkipLeading(s: string, i: nat): (n: nat)
    requires i <= |s|
    ensures i <= n <= |s|
    ensures forall k :: i <= k < n ==> IsWhitespace(s[k])
    ensures n == |s| || !IsWhitespace(s[n])
    decreases |s| - i
  {
    if i < |s| && IsWhitespace(s[i]) then SkipLeading(s, i + 1) else i
  }

  /** The end of `s[lo..j]` once its trailing whitespace is dropped: where
      `trim`'s result ends. */
  function SkipTrailing(s: string, lo: nat, j: nat): (n: nat)
    requires lo <= j <= |s|
    ensures lo <= n <= j
    ensures forall k :: n <= k < j ==> IsWhitespace(s[k])
    ensures n == lo || !IsWhitespace(s[n - 1])
    decreases j
  {
    if lo < j && IsWhitespace(s[j - 1]) then SkipTrailing(s, lo, j - 1) else j
  }

  /** `String.prototype.trim`: never longer than its input, and neither
      starting nor ending with whitespace. */
  function Trim(s: string): (r: string)
    ensures |r| <= |s|
    ensures r == [] || (!IsWhitespace(r[0]) && !IsWhitespace(r[|r| - 1]))
  {
    var lo := SkipLeading(s, 0);
    s[lo..SkipTrailing(s, lo, |s|)]
  }

  /** `trim` removes only surrounding whitespace: what it returns is a
      contiguous piece of its input that neither starts nor ends with
      whitespace, and everything cut off is whitespace. */
  lemma TrimIsCore(s: string)
    ensures exists i :: 0 <= i <= |s| - |Trim(s)| && Trim(s) == s[i..i + |Trim(s)|]
              && IsBlank(s[..i]) && IsBlank(s[i + |Trim(s)|..])
    ensures Trim(s) == [] || (!IsWhitespace(Trim(s)[0]) && !IsWhitespace(Trim(s)[|Trim(s)| - 1]))
  {
    var lo := SkipLeading(s, 0);
    var hi := SkipTrailing(s, lo, |s|);
    var r := s[lo..hi];
    assert Trim(s) == r;
    assert IsBlank(s[..lo]) by {
      forall k | 0 <= k < lo ensures IsWhitespace(s[..lo][k]) {
        assert s[..lo][k] == s[k];
      }
    }
    assert IsBlank(s[hi..]) by {
      forall k | 0 <= k < |s| - hi ensures IsWhitespace(s[hi..][k]) {
        assert s[hi..][k] == s[hi + k];
      }
    }
    assert s[lo..lo + |r|] == r;
    if r != [] {
      assert r[0] == s[lo];
      assert r[|r| - 1] == s[hi - 1];
    }
  }

  /** The trimmed string is empty exactly when the input is blank: the test
      `!s.trim()` rejects precisely the whitespace-only strings. */
  lemma TrimEmptyIffBlank(s: string)
    ensures Trim(s) == [] <==> IsBlank(s)
  {
    var lo := SkipLeading(s, 0);
    var hi := SkipTrailing(s, lo, |s|);
    assert Trim(s) == s[lo..hi];
    if IsBlank(s) {
      assert lo == |s|;
    }
    if Trim(s) == [] {
      assert hi == lo;
      assert lo == |s|;
    }
  }

  /** Trimming twice is trimming once. */
  lemma TrimIdempotent(s: string)
    ensures Trim(Trim(s)) == Trim(s)
  {
    var r := Trim(s);
    TrimIsCore(s);
    if r != [] {
      assert SkipLeading(r, 0) == 0;
      assert SkipTrailing(r, 0, |r|) == |r|;
      assert r[0..|r|] == r;
    }
  }
}

=== FILE: timesheet.dfy ===
/** The weekly timesheet grid: one row of hours per project, Monday to
    Friday, with daily totals checked against an eight-hour day and a chart
    of the projects that have hours booked. */
module Timesheet {
  import opened Options
  import opened Types
  import Seqs
  import Text

  /** The most hours one cell can hold. */
  const MaxHours: real := 24.0

  /** The expected working day. */
  const DailyTarget: real := 8.0

  /** The row a project gets when it is first seen: zero hours every day. */
  const ZeroHours: DailyHours := map[0 := 0.0, 1 := 0.0, 2 := 0.0, 3 := 0.0, 4 := 0.0]

  /** The projects that have a row. */
  function EntryKeys(entries: seq<TimesheetEntry>): set<Id>
  {
    set e | e in entries :: e.projectId
  }

  /** Every project has a row, and no two rows belong to the same project:
      each project has exactly one entry. */
  ghost predicate OneEntryPerProject(projects: seq<Project>, entries: seq<TimesheetEntry>)
  {
    && (forall p :: p in projects ==> p.id in EntryKeys(entries))
    && Seqs.DistinctBy(EntryProject, entries)
  }

  function WithoutEntry(existing: set<Id>): Project -> bool
  {
    (p: Project) => p.id !in existing
  }

  function ZeroEntries(projects: seq<Project>): (r: seq<TimesheetEntry>)
    ensures |r| == |projects|
    ensures forall i :: 0 <= i < |r| ==> r[i] == TimesheetEntry(projects[i].id, ZeroHours)
  {
    seq(|projects|, i requires 0 <= i < |projects| => TimesheetEntry(projects[i].id, ZeroHours))
  }

  /** The reconciliation run whenever the project list changes: a zero row
      is appended for every project that has none, in project order. */
  function Reconcile(projects: seq<Project>, entries: seq<TimesheetEntry>): (r: seq<TimesheetEntry>)
    ensures |entries| <= |r| && r[..|entries|] == entries
    ensures forall p :: p in projects ==> p.id in EntryKeys(r)
    ensures forall k :: |entries| <= k < |r| ==>
              && r[k].hours == ZeroHours
              && r[k].projectId !in EntryKeys(entries)
              && exists p :: p in projects && p.id == r[k].projectId
  {
    var missing := Seqs.Filter(WithoutEntry(EntryKeys(entries)), projects);
    var added := ZeroEntries(missing);
    var r := entries + added;
    MissingRowsCover(projects, entries);
    AddedRowsAreNew(projects, entries);
    assert r[..|entries|] == entries;
    assert forall k :: |entries| <= k < |r| ==> r[k] == added[k - |entries|];
    r
  }

  /** Every project ends up with a row: either it had one or it is missing
      and gets one. */
  lemma MissingRowsCover(projects: seq<Project>, entries: seq<TimesheetEntry>)
    ensures var added := ZeroEntries(Seqs.Filter(WithoutEntry(EntryKeys(entries)), projects));
            forall p :: p in projects ==> p.id in EntryKeys(entries + added)
  {
    var missing := Seqs.Filter(WithoutEntry(EntryKeys(entries)), projects);
    var added := ZeroEntries(missing);
    var r := entries + added;
    forall p | p in projects ensures p.id in EntryKeys(r) {
      if p.id in EntryKeys(entries) {
        var e :| e in entries && e.projectId == p.id;
        assert e in r;
      } else {
        assert p in missing;
        var j :| 0 <= j < |missing| && missing[j] == p;
        assert r[|entries| + j] == added[j];
      }
    }
  }

  /** The added rows are zero rows of projects that had none. */
  lemma AddedRowsAreNew(projects: seq<Project>, entries: seq<TimesheetEntry>)
    ensures var added := ZeroEntries(Seqs.Filter(WithoutEntry(EntryKeys(entries)), projects));
            forall k :: 0 <= k < |added| ==>
              && added[k].hours == ZeroHours
              && added[k].projectId !in EntryKeys(entries)
              && exists p :: p in projects && p.id == added[k].projectId
  {
    var missing := Seqs.Filter(WithoutEntry(EntryKeys(entries)), projects);
    var added := ZeroEntries(missing);
    forall k | 0 <= k < |added|
      ensures added[k].projectId !in EntryKeys(entries)
      ensures exists p :: p in projects && p.id == added[k].projectId
    {
      assert missing[k] in missing;
    }
  }

  /** Reconciling again adds nothing. */
  lemma ReconcileIdempotent(projects: seq<Project>, entries: seq<TimesheetEntry>)
    ensures Reconcile(projects, Reconcile(projects, entries)) == Reconcile(projects, entries)
  {
    var once := Reconcile(projects, entries);
    var keep := WithoutEntry(EntryKeys(once));
    assert forall p :: p in projects ==> !keep(p);
    Seqs.FilterNone(keep, projects);
  }

  /** With unique project ids and at most one row per project beforehand,
      reconciliation leaves exactly one row per project. */
  lemma ReconcileOnePerProject(projects: seq<Project>, entries: seq<TimesheetEntry>)
    requires Seqs.DistinctBy(ProjectId, projects)
    requires Seqs.DistinctBy(EntryProject, entries)
    ensures OneEntryPerProject(projects, Reconcile(projects, entries))
  {
    var keep := WithoutEntry(EntryKeys(entries));
    var missing := Seqs.Filter(keep, projects);
    var added := ZeroEntries(missing);
    Seqs.FilterDistinct(keep, ProjectId, projects);
    assert Seqs.DistinctBy(EntryProject, added) by {
      forall i, j | 0 <= i < j < |added| ensures EntryProject(added[i]) != EntryProject(added[j]) {
        assert ProjectId(missing[i]) != ProjectId(missing[j]);
      }
    }
    forall x, y | x in entries && y in added ensures EntryProject(x) != EntryProject(y) {
      var j :| 0 <= j < |added| && added[j] == y;
      assert missing[j] in missing;
    }
    Seqs.DistinctAppend(EntryProject, entries, added);
    assert Reconcile(projects, entries) == entries + added;
  }

  /** What an hours cell's text parses to (`parseFloat`). */
  datatype ParsedNumber = NotANumber | Finite(value: real) | PlusInfinity | MinusInfinity

  /** `Math.max(0, n)` for a number that is not `NaN`. */
  function AtLeastZero(n: ParsedNumber): ParsedNumber
    requires !n.NotANumber?
  {
    match n
    case Finite(v) => if v < 0.0 then Finite(0.0) else n
    case MinusInfinity => Finite(0.0)
    case PlusInfinity => n
  }

  /** `Math.min(24, n)` for a number that is at least zero. */
  function AtMostMax(n: ParsedNumber): real
    requires n.Finite? ==> n.value >= 0.0
    requires !n.NotANumber? && !n.MinusInfinity?
  {
    match n
    case Finite(v) => if v > MaxHours then MaxHours else v
    case PlusInfinity => MaxHours
  }

  /** The value stored for a typed cell: an unparsable entry counts as 0,
      then the number is clamped to [0, 24]. */
  function ClampHours(input: ParsedNumber): (h: real)
    ensures 0.0 <= h <= MaxHours
    ensures input.Finite? && 0.0 <= input.value <= MaxHours ==> h == input.value
    ensures input.Finite? && input.value > MaxHours ==> h == MaxHours
    ensures input.Finite? && input.value < 0.0 ==> h == 0.0
    ensures input.NotANumber? || input.MinusInfinity? ==> h == 0.0
    ensures input.PlusInfinity? ==> h == MaxHours
  {
    var n := if input.NotANumber? then Finite(0.0) else input;
    AtMostMax(AtLeastZero(n))
  }

  /** Storing a clamped value and reading it back clamps to the same value. */
  lemma ClampIsIdempotent(input: ParsedNumber)
    ensures ClampHours(Finite(ClampHours(input))) == ClampHours(input)
  {
  }

  /** Every stored hour value lies in [0, 24]. */
  ghost predicate AllClamped(entries: seq<TimesheetEntry>)
  {
    forall e, d :: e in entries && d in e.hours ==> 0.0 <= e.hours[d] <= MaxHours
  }

  function SetHours(e: TimesheetEntry, projectId: Id, day: Day, h: real): TimesheetEntry
  {
    if e.projectId == projectId then e.(hours := e.hours[day := h]) else e
  }

  /** Typing into a cell: the rows of that project get the clamped value on
      that day; nothing else changes. */
  function HourChange(entries: seq<TimesheetEntry>, projectId: Id, day: Day, input: ParsedNumber): (r: seq<TimesheetEntry>)
    ensures |r| == |entries|
    ensures forall i :: 0 <= i < |entries| ==> r[i].projectId == entries[i].projectId
    ensures forall i :: 0 <= i < |entries| && entries[i].projectId != projectId ==> r[i] == entries[i]
    ensures forall i :: 0 <= i < |entries| && entries[i].projectId == projectId ==>
              && day in r[i].hours && r[i].hours[day] == ClampHours(input)
              && r[i].hours - {day} == entries[i].hours - {day}
    ensures AllClamped(entries) ==> AllClamped(r)
  {
    var h := ClampHours(input);
    var r := seq(|entries|, i requires 0 <= i < |entries| => SetHours(entries[i], projectId, day, h));
    assert forall i :: 0 <= i < |entries| && entries[i].projectId == projectId ==>
      r[i].hours - {day} == entries[i].hours - {day};
    assert AllClamped(entries) ==> AllClamped(r) by {
      if AllClamped(entries) {
        forall e, d | e in r && d in e.hours ensures 0.0 <= e.hours[d] <= MaxHours {
          var i :| 0 <= i < |r| && r[i] == e;
          assert entries[i] in entries;
        }
      }
    }
    r
  }

  /** The hours of one row on one day, zero when the day is not a key. */
  function HoursOn(e: TimesheetEntry, day: Day): real
  {
    if day in e.hours then e.hours[day] else 0.0
  }

  /** The day's total across all rows (`getDailyTotal`), summed left to
      right. */
  function DailyTotal(entries: seq<TimesheetEntry>, day: Day): (t: real)
    ensures AllClamped(entries) ==> 0.0 <= t <= MaxHours * (|entries| as real)
    decreases |entries|
  {
    if |entries| == 0 then 0.0
    else
      var front := entries[..|entries| - 1];
      assert forall e :: e in front ==> e in entries;
      assert entries[|entries| - 1] in entries;
      DailyTotal(front, day) + HoursOn(entries[|entries| - 1], day)
  }

  /** Totals add up over concatenated row lists. */
  lemma {:induction false} DailyTotalAppend(a: seq<TimesheetEntry>, b: seq<TimesheetEntry>, day: Day)
    ensures DailyTotal(a + b, day) == DailyTotal(a, day) + DailyTotal(b, day)
    decreases |b|
  {
    if |b| > 0 {
      var b' := b[..|b| - 1];
      assert (a + b)[..|a + b| - 1] == a + b';
      assert (a + b)[|a + b| - 1] == b[|b| - 1];
      DailyTotalAppend(a, b', day);
    } else {
      assert a + b == a;
    }
  }

  /** Zero rows add nothing to any day. */
  lemma {:induction false} ZeroRowsTotalZero(projects: seq<Project>, day: Day)
    ensures DailyTotal(ZeroEntries(projects), day) == 0.0
    decreases |projects|
  {
    if |projects| > 0 {
      var front := projects[..|projects| - 1];
      assert ZeroEntries(projects)[..|projects| - 1] == ZeroEntries(front);
      ZeroRowsTotalZero(front, day);
    }
  }

  /** Reconciliation never changes a daily total. */
  lemma ReconcileKeepsTotals(projects: seq<Project>, entries: seq<TimesheetEntry>, day: Day)
    ensures DailyTotal(Reconcile(projects, entries), day) == DailyTotal(entries, day)
  {
    var missing := Seqs.Filter(WithoutEntry(EntryKeys(entries)), projects);
    assert Reconcile(projects, entries) == entries + ZeroEntries(missing);
    DailyTotalAppend(entries, ZeroEntries(missing), day);
    ZeroRowsTotalZero(missing, day);
  }

  /** The colour a daily total is shown in. */
  datatype DayStatus = Neutral | Under | Exact | Over

  /** The classification of the totals row: each test overrides the
      default in turn, as the rendering code does. */
  function Classify(total: real): (c: DayStatus)
    ensures c == Over <==> total > DailyTarget
    ensures c == Under <==> 0.0 < total < DailyTarget
    ensures c == Exact <==> total == DailyTarget
    ensures c == Neutral <==> total <= 0.0
  {
    var isOver := total > DailyTarget;
    var isUnder := total < DailyTarget && total > 0.0;
    var isPerfect := total == DailyTarget;
    var c0 := Neutral;
    var c1 := if isOver then Over else c0;
    var c2 := if isUnder then Under else c1;
    if isPerfect then Exact else c2
  }

  /** With clamped hours a day is shown neutral exactly when nothing is
      booked on it. */
  lemma NeutralIffNothingBooked(entries: seq<TimesheetEntry>, day: Day)
    requires AllClamped(entries)
    ensures Classify(DailyTotal(entries, day)) == Neutral <==> DailyTotal(entries, day) == 0.0
  {
  }

  /** Submitting the new-project field: a blank name is ignored and the
      field keeps its text; otherwise the trimmed name is handed on and the
      field is cleared. */
  function SubmitProjectName(field: string): (r: (Option<string>, string))
    ensures r.0.Some? <==> !Text.IsBlank(field)
    ensures r.0.Some? ==> r.0.value == Text.Trim(field) && r.1 == ""
    ensures r.0.None? ==> r.1 == field
  {
    Text.TrimEmptyIffBlank(field);
    if Text.Trim(field) != "" then (Some(Text.Trim(field)), "") else (None, field)
  }

  /** The sum of a row's values (`Object.values(hours)` added up). */
  function SumDays(h: DailyHours, n: nat): (t: real)
    requires n <= 5
    ensures (forall d :: d in h ==> 0.0 <= h[d] <= MaxHours) ==> 0.0 <= t <= MaxHours * (n as real)
  {
    if n == 0 then 0.0
    else SumDays(h, n - 1) + (if (n - 1) as Day in h then h[(n - 1) as Day] else 0.0)
  }

  function WeekTotal(h: DailyHours): real
  {
    SumDays(h, 5)
  }

  function EntryFor(id: Id): TimesheetEntry -> bool
  {
    (e: TimesheetEntry) => e.projectId == id
  }

  /** A project's hours for the week, from its first row; zero without one. */
  function ProjectTotal(p: Project, entries: seq<TimesheetEntry>): (t: real)
    ensures (forall e :: e in entries ==> e.projectId != p.id) ==> t == 0.0
    ensures forall i :: 0 <= i < |entries| && FirstRowOf(p.id, entries, i) ==> t == WeekTotal(entries[i].hours)
  {
    var f := Seqs.Find(EntryFor(p.id), entries);
    match f
    case None => 0.0
    case Some(e) =>
      var k :| 0 <= k < |entries| && entries[k] == e && EntryFor(p.id)(entries[k])
               && forall j :: 0 <= j < k ==> !EntryFor(p.id)(entries[j]);
      assert FirstRowOf(p.id, entries, k);
      FirstRowIsUnique(p.id, entries, k);
      WeekTotal(e.hours)
  }

  /** `entries[i]` is the first row of the project `id`. */
  ghost predicate FirstRowOf(id: Id, entries: seq<TimesheetEntry>, i: int)
    requires 0 <= i < |entries|
  {
    entries[i].projectId == id && forall j :: 0 <= j < i ==> entries[j].projectId != id
  }

  lemma FirstRowIsUnique(id: Id, entries: seq<TimesheetEntry>, k: int)
    requires 0 <= k < |entries| && FirstRowOf(id, entries, k)
    ensures forall i :: 0 <= i < |entries| && FirstRowOf(id, entries, i) ==> i == k
  {
  }

  datatype ChartPoint = ChartPoint(name: string, hours: real, fill: string)

  function PointFor(p: Project, entries: seq<TimesheetEntry>): ChartPoint
  {
    ChartPoint(p.name, ProjectTotal(p, entries), p.color)
  }

  /** One point per project, in project order, before the filter. */
  function AllPoints(projects: seq<Project>, entries: seq<TimesheetEntry>): seq<ChartPoint>
  {
    seq(|projects|, i requires 0 <= i < |projects| => PointFor(projects[i], entries))
  }

  /** The unfiltered points are exactly the points of the projects. */
  lemma AllPointsAreProjects(projects: seq<Project>, entries: seq<TimesheetEntry>)
    ensures forall p :: p in projects ==> PointFor(p, entries) in AllPoints(projects, entries)
    ensures forall pt :: pt in AllPoints(projects, entries) ==> exists p :: p in projects && pt == PointFor(p, entries)
  {
    var all := AllPoints(projects, entries);
    forall p | p in projects ensures PointFor(p, entries) in all {
      var i :| 0 <= i < |projects| && projects[i] == p;
      assert all[i] == PointFor(p, entries);
    }
    forall pt | pt in all ensures exists p :: p in projects && pt == PointFor(p, entries) {
      var i :| 0 <= i < |all| && all[i] == pt;
      assert projects[i] in projects;
    }
  }

  function HasHours(pt: ChartPoint): bool
  {
    pt.hours > 0.0
  }

  /** The bar chart's data: a point for each project with hours booked,
      in project order. */
  function ChartData(projects: seq<Project>, entries: seq<TimesheetEntry>): (r: seq<ChartPoint>)
    ensures forall pt :: pt in r ==> pt.hours > 0.0 && exists p :: p in projects && pt == PointFor(p, entries)
    ensures forall p :: p in projects && ProjectTotal(p, entries) > 0.0 ==> PointFor(p, entries) in r
    ensures Seqs.Subsequence(r, AllPoints(projects, entries))
    ensures forall pt :: multiset(r)[pt] == if pt.hours > 0.0 then multiset(AllPoints(projects, entries))[pt] else 0
  {
    var all := AllPoints(projects, entries);
    AllPointsAreProjects(projects, entries);
    var r := Seqs.Filter(HasHours, all);
    assert forall pt :: HasHours(pt) == (pt.hours > 0.0);
    r
  }

  /** A clamped week row totals between 0 and 120 hours. */
  lemma WeekTotalBounded(entries: seq<TimesheetEntry>, p: Project)
    requires AllClamped(entries)
    ensures 0.0 <= ProjectTotal(p, entries) <= MaxHours * 5.0
  {
    var f := Seqs.Find(EntryFor(p.id), entries);
    if f.Some? {
      assert f.value in entries;
    }
  }
}

=== FILE: types.dfy ===
/** The records the application stores and syncs: projects, timesheet
    entries, notes, tasks with their checklists, and the snapshot written to
    the cloud file. */
module Types {

  /** An opaque identifier (the application draws them from `crypto.randomUUID`). */
  type Id = string

  /** A point in time (`Date`), as milliseconds; only compared for equality. */
  type Timestamp = int

  /** The working days of the timesheet grid, Monday to Friday. */
  const DaysOfWeek: seq<string> := ["Lunedì", "Martedì", "Mercoledì", "Giovedì", "Venerdì"]

  /** A day index into `DaysOfWeek`: 0 is Monday, 4 is Friday. */
  type Day = d: int | 0 <= d < |DaysOfWeek|

  datatype Project = Project(id: Id, name: string, color: string)

  /** Hours booked per day; a day that is not a key counts as no hours. */
  type DailyHours = map<Day, real>

  datatype TimesheetEntry = TimesheetEntry(projectId: Id, hours: DailyHours)

  datatype Note = Note(id: Id, title: string, content: string, updatedAt: Timestamp)

  /** The three board columns, in their left-to-right order. */
  datatype TaskStatus = Todo | Doing | Done

  datatype Priority = Low | Medium | High

  datatype ChecklistItem = ChecklistItem(id: Id, text: string, done: bool)

  datatype Task = Task(id: Id, content: string, status: TaskStatus, priority: Priority, checklist: seq<ChecklistItem>)

  /** Everything written to the cloud file, stamped with the ISO-8601 time
      it was assembled. */
  datatype SyncedData = SyncedData(
    projects: seq<Project>,
    entries: seq<TimesheetEntry>,
    notes: seq<Note>,
    tasks: seq<Task>,
    lastUpdated: string)

  // The keys by which records are identified, as function values for
  // `Seqs.DistinctBy` and `Seqs.Filter`.

  function ProjectId(p: Project): Id { p.id }

  function EntryProject(e: TimesheetEntry): Id { e.projectId }

  function NoteId(n: Note): Id { n.id }

  function TaskId(t: Task): Id { t.id }

}
